=== FILE: README.md ===
# Electricity bill monitoring — a Dafny model of the usage engine and its stores

The monitored system polls a prepaid electricity meter and keeps usage statistics.
Each successful poll hands a reading to `update_historical_data`. That function:

- appends a record to a log capped at 1000 entries;
- computes the energy used since the previous record, as the drop in remaining
  power, and never negative;
- folds that usage into five rollup maps, keyed by ten-minute, hour, day, week
  and month strings;
- sweeps out buckets whose key sorts before a retention cutoff;
- saves everything to `data_history.json`.

A MongoDB-backed `DatabaseManager` offers the same data through upserts and
sorted queries. A one-off script, `clean_data.py`, deletes the fake January 2025
records and bucket keys from the history file.

The model is organised in these modules:

- `Text`: Python's lexicographic string order, the zero-padded decimal fields of
  `strftime`, and `startswith` and `in`.
- `Calendar`: the proleptic Gregorian calendar, with Python's ordinal, `weekday()`,
  `%U` and `timedelta` subtraction. Subtraction can overflow before 0001-01-01, so
  it returns an option.
- `BucketKeys`: the five key formats and `isoformat()`. Also proofs that each
  format's string order agrees with time order, and that every retention cutoff
  sorts no later than the key just written.
- `Rollup`: a single bucket map. This covers the additive update, the sweep below
  a cutoff, and the total over all buckets.
- `UsageEngine`: the six globals as one `State`, the ingest step, the expiry
  sweep, repeated polling cycles, and the two read-side projections.
- `HistoryFile`: the saved document and the three outcomes of loading it.
- `DocumentStore`: `DatabaseManager` as a pure in-memory store of four
  collections.
- `DataCleaning`: the January clean-up script, and exactly which of the engine's
  own keys it matches.

The model has no wall clock. The current time `now` is a parameter, as are the
reading and what the file system returns. Quantities are `real`.

One observation the proofs make explicit: a weekly key has the form `2025-W02`, so
it never contains `2025-01` (`DataCleaning.WeekKeyNeverJanuary`). The clean-up
script therefore keeps every January 2025 weekly bucket, while it removes the
ten-minute, hourly, daily and monthly ones.

## Model

| member | source | states |
|---|---|---|
| UsageEngine.MakeRecord | app.py:183-192 | the record carries `now.isoformat()` and the reading's remaining power, 0 when absent |
| UsageEngine.Ingest | app.py:179-253 | after `update_historical_data` the log holds min(n+1, 1000) records and ends with the record just built |
| UsageEngine.AppendCapped | app.py:194-198 | the log grows by one up to 1000 entries, ends with the new record, and keeps the newest of the old entries in order |
| UsageEngine.Delta | app.py:200-205 | usage is never negative; 0 when fewer than two records exist or the balance rose; otherwise the drop from the second-to-last record |
| UsageEngine.DeltaFromPrevious | app.py:194-205 | after the append, the second-to-last record is the previous poll, so usage is 0 on the first poll and the drop from the previous reading otherwise |
| UsageEngine.IngestDelta | app.py:194-205 | the usage charged for a reading, stated against the state before the poll: 0 on an empty log or a recharge, the drop in power otherwise |
| UsageEngine.UpdateBuckets | app.py:207-248 | updating the five rollups leaves the history log untouched |
| UsageEngine.UpdateBucketsFrame | app.py:207-248 | each rollup gains exactly the current period's key, and every other bucket keeps its value |
| UsageEngine.CutoffsAt | app.py:259-296 | a cutoff exists exactly when its date and every earlier sweep's date fall on or after 0001-01-01; the weekly one needs the 365-day daily cutoff too, because an OverflowError aborts the remaining sweeps |
| UsageEngine.TenMinuteCutoff | app.py:261-262 | the 24-hour cutoff has the ten-minute key's format and sorts strictly before the key this poll writes |
| UsageEngine.HourCutoff | app.py:268-269 | the 30-day cutoff has the hourly key's format and sorts strictly before the current hourly key |
| UsageEngine.DayCutoff | app.py:275-276 | the 365-day cutoff has the daily key's format and sorts strictly before the current daily key |
| UsageEngine.WeekCutoff | app.py:282-283 | the 52-week cutoff has the weekly key's format and sorts no later than the current Monday's weekly key |
| UsageEngine.MonthCutoff | app.py:289-290 | the 730-day cutoff has the monthly key's format and sorts no later than the current monthly key |
| UsageEngine.Sweep | app.py:263-265 | the sweep keeps exactly the buckets whose key sorts at or after the cutoff, unchanged, and keeps everything when the cutoff overflowed |
| UsageEngine.Prune | app.py:255-296 | expiry never touches the history log |
| UsageEngine.PruneIdempotent | app.py:255-296 | sweeping twice with the same cutoffs removes nothing more |
| UsageEngine.CleanupExpired | app.py:255-296 | `cleanup_expired_data` leaves the history log untouched |
| UsageEngine.CleanupExpiredSpec | app.py:255-296 | every surviving bucket is an original bucket with its value; with the 1/30/365/364/730-day cutoffs, a key survives iff it sorts at or after the cutoff key; maps whose sweep overflowed are unchanged |
| UsageEngine.CleanupIdempotent | app.py:255-296 | a second expiry at the same time removes nothing |
| UsageEngine.IngestStages | app.py:179-253 | an ingest is the append, then the bucket update with the computed usage, then the expiry sweep, in that order |
| UsageEngine.IngestHistory | app.py:183-198 | after an ingest the log holds min(n+1, 1000) records, the last being the new record and the rest the newest old ones |
| UsageEngine.CurrentKeysSurvive | app.py:207-296 | every cutoff key sorts no later than the key of the bucket this poll wrote, so the sweep never deletes the current bucket |
| UsageEngine.IngestCurrentBuckets | app.py:207-251 | after an ingest, each current bucket exists with usage raised by the delta, count raised by one and `avg_power` equal to the reading; the daily peak is the max of the old peak and the reading |
| UsageEngine.IngestOtherBuckets | app.py:207-251 | any other bucket that survives an ingest existed before with the same value |
| UsageEngine.AddSampleGood | app.py:210-214 | folding a non-negative delta keeps every bucket's usage non-negative and its count positive |
| UsageEngine.AddDaySampleGood | app.py:226-231 | the same for daily buckets, whose peak stays non-negative |
| UsageEngine.IngestWellformed | app.py:179-253 | an ingest keeps the log at most 1000 records and every bucket non-negative with a positive count |
| UsageEngine.StepHistory | app.py:41-64 | a polling cycle grows the log by one (capped at 1000) when the fetch succeeded and leaves it alone when it failed |
| UsageEngine.Step | app.py:41-64 | a failed fetch leaves the state unchanged; a successful one ends the log with the new record |
| UsageEngine.RunCyclesHistory | app.py:41-64 | after any run of cycles the log length is min(initial + successful fetches, 1000) |
| UsageEngine.RunCycles | app.py:41-64 | a run of cycles in which no fetch succeeded leaves the state unchanged |
| UsageEngine.StepWellformed | app.py:41-64 | one polling cycle, successful or not, keeps the state wellformed |
| UsageEngine.RunCyclesWellformed | app.py:41-64 | any run of polling cycles keeps the state wellformed |
| UsageEngine.RecentHistory | app.py:323 | `/api/historical-data` returns the last min(n, 24) records, as a suffix of the log |
| UsageEngine.RecentHistoryAfterIngest | app.py:323 | right after an ingest, the newest record returned is the one just written |
| UsageEngine.Recent24hUsage | app.py:430 | the sum of the ten-minute usages is non-negative when every bucket is |
| UsageEngine.Recent24hUsageUpdate | app.py:430 | the `recent_24h` total rises by exactly the delta folded in, and is non-negative in a wellformed state |
| Rollup.AddSample | app.py:210-214 | the bucket at the key is created if absent, then its usage grows by delta, its count by one, and `avg_power` becomes the reading; other buckets are unchanged |
| Rollup.AddDaySample | app.py:226-231 | as `AddSample`, and `peak_power` becomes the larger of the old peak and the reading |
| Rollup.EvictBefore | app.py:263-265 | deleting keys `k < cutoff` keeps exactly the keys with `cutoff <= k`, with their values |
| Rollup.EvictIdempotent | app.py:263-265 | a second sweep with the same cutoff deletes nothing |
| Rollup.EvictCompose | app.py:263-265 | a sweep with an earlier cutoff followed by one with a later cutoff is the later sweep alone |
| Rollup.TotalUsage | app.py:430 | `sum(data.get('usage', 0) for data in m.values())`; `TotalUsageRemove` proves the sum independent of dictionary order |
| Rollup.TotalUsageRemove | app.py:430 | the sum over `values()` does not depend on the order of the dictionary |
| Rollup.TotalUsageUpdate | app.py:430 | overwriting one bucket changes the total by that bucket's change in usage |
| Rollup.TotalUsageAddSample | app.py:430 | folding a sample raises the total usage by exactly its delta |
| Rollup.TotalUsageNonNegative | app.py:430 | a total of non-negative buckets is non-negative |
| BucketKeys.MinuteText | app.py:208-209 | `%Y-%m-%d %H:%M` is 16 characters and begins with the day's `%Y-%m-%d` |
| BucketKeys.FloorToTenMinutes | app.py:208 | rounding down keeps the date and hour and gives a minute that is a multiple of ten and at most the original |
| BucketKeys.HourText | app.py:217 | `%Y-%m-%d-%H` is 13 characters and begins with the day's `%Y-%m-%d` |
| BucketKeys.DateText | app.py:225 | `%Y-%m-%d` is 10 characters and begins with the month's `%Y-%m` |
| BucketKeys.WeekText | app.py:235 | `%Y-W%U` is 8 characters |
| BucketKeys.MonthText | app.py:243 | `%Y-%m` is 7 characters |
| BucketKeys.TenMinuteKey | app.py:208-209 | the ten-minute key is 16 characters, begins with the daily key, and never sorts after the exact minute |
| BucketKeys.HourKey | app.py:217 | the hourly key is 13 characters and begins with the daily key |
| BucketKeys.DayKey | app.py:225 | the daily key is 10 characters and begins with the monthly key |
| BucketKeys.WeekKey | app.py:234-235 | the weekly key is 8 characters and, taken from the week's Monday, never sorts after the `%Y-W%U` of the day itself |
| BucketKeys.MonthKey | app.py:243 | the monthly key is 7 characters |
| BucketKeys.Isoformat | app.py:184 | `isoformat()` is 19 characters, or 26 with microseconds, and begins with the `%Y-%m-%d` date and so with the `%Y-%m` month |
| BucketKeys.MinuteTextOrder | app.py:262-263 | for ten-minute keys, string order is time order at minute granularity |
| BucketKeys.HourTextOrder | app.py:269-270 | for hourly keys, string order is time order at hour granularity |
| BucketKeys.DateTextOrder | app.py:276-277 | for daily keys, string order is date order |
| BucketKeys.WeekTextOrder | app.py:283-284 | weekly keys compare by year first, then by `%U` week number |
| BucketKeys.MonthTextOrder | app.py:290-291 | for monthly keys, string order is month order |
| BucketKeys.WeekTextSubDays | app.py:234-235 | going back any number of days never yields a later `%Y-W%U` string |
| BucketKeys.TenMinuteCutoffBelowKey | app.py:261-263 | the 24-hour cutoff key sorts no later than the current ten-minute key |
| BucketKeys.HourCutoffBelowKey | app.py:268-270 | the 30-day cutoff key sorts no later than the current hourly key |
| BucketKeys.DayCutoffBelowKey | app.py:275-277 | the 365-day cutoff key sorts no later than the current daily key |
| BucketKeys.WeekCutoffBelowKey | app.py:282-284 | the 52-week cutoff key sorts no later than the key of the current week's Monday |
| BucketKeys.MonthCutoffBelowKey | app.py:289-291 | the 730-day cutoff key sorts no later than the current monthly key |
| Calendar.SubDays | app.py:261 | subtracting n days succeeds iff the result is on or after 0001-01-01, and then lowers the ordinal by exactly n and keeps the time of day |
| Calendar.SubDaysSplit | app.py:234 | subtracting a+b days is subtracting a days, then b |
| Calendar.SubDaysBefore | app.py:268 | subtracting at least one day yields an earlier date |
| Calendar.WeekStart | app.py:234 | `now - timedelta(days=now.weekday())` is a Monday in the six days up to `now`, at the same time of day |
| Calendar.Ordinal | app.py:261 | the day count that `timedelta` subtraction works on is at least 1, and equals 1 only on 0001-01-01 |
| Calendar.DaysBeforeYearClosed | app.py:261 | the recursive count of days before a year equals Python's closed form `365*(y-1) + (y-1)//4 - (y-1)//100 + (y-1)//400` |
| Calendar.Weekday | app.py:234 | `weekday()` lies in 0..6, and 0001-01-01 is a Monday |
| Calendar.SundayWeek | app.py:235 | `%U` lies in 0..53, and January 1st is in week 1 exactly when it is a Sunday |
| Text.LessEqIffNotLess | app.py:263 | a key is kept (`not k < cutoff`) iff `cutoff <= k` in Python's string order |
| Text.LessTransitive | app.py:263 | Python's string order is transitive |
| Text.LessTotal | app.py:263 | any two strings are equal or ordered one way or the other |
| Text.Less | app.py:263 | Python's `<` on strings never holds between equal strings |
| Text.StartsWith | clean_data.py:37 | `startswith` is an occurrence at position 0 |
| Text.Contains | clean_data.py:54 | `in` on strings holds only when the pattern is no longer than the string |
| Text.PadOrder | app.py:209 | zero-padded numbers of the same width compare as strings the way they compare as numbers |
| Text.AbsentNotContains | clean_data.py:54 | a string in which the pattern occurs at no position does not contain it |
| HistoryFile.Save | app.py:163-177 | the saved document has all six keys |
| HistoryFile.Load | app.py:140-161 | a missing file keeps the state; an unreadable file resets all six globals; from a decoded file each global takes its key's value, or `[]`/`{}` when the key is absent |
| HistoryFile.LoadIgnoresCurrent | app.py:144-161 | unless the file is missing, the state before the load does not influence the result |
| HistoryFile.LoadSave | app.py:140-175 | loading what was saved restores the state exactly, from any starting state |
| HistoryFile.LoadEmptyDocument | app.py:148-161 | a document with every key absent loads the same as an unreadable file |
| HistoryFile.LoadStable | app.py:140-175 | saving a loaded state and loading it again changes nothing |
| HistoryFile.UnreadableWellformed | app.py:154-161 | the state after an unreadable file is wellformed |
| DocumentStore.Find | database.py:141-145 | the filter matches no document before the returned position, and does match the one at it |
| DocumentStore.ReplaceOne | database.py:141-145 | `replace_one(..., upsert=True)` replaces the first matching document, or appends when none matches |
| DocumentStore.ReplaceOneUnique | database.py:183-187 | an upsert into a collection with unique identities keeps them unique; the written document is the only one with its identity; documents of other identities are kept and none is added |
| DocumentStore.ReplaceOneFind | database.py:232-236 | after an upsert, the first document found for the key is the one written |
| DocumentStore.Insert | database.py:123 | inserting into a sorted list keeps it sorted and adds exactly the element |
| DocumentStore.Sort | database.py:282-285 | `sort('timestamp', ...)` returns a permutation ordered by timestamp |
| DocumentStore.SortedSplit | database.py:282-287 | in a sorted list, every element before a cut precedes every element after it |
| DocumentStore.CleanupHistorical | database.py:271-297 | at most `max_records` documents remain, none is invented, and a collection within the limit is untouched |
| DocumentStore.CleanupRemovesOldest | database.py:277-293 | exactly the excess count of documents is deleted, and each deleted timestamp sorts no later than any kept one |
| DocumentStore.SaveHistoricalRecord | database.py:93-112 | when disconnected, nothing changes and the call fails; otherwise it succeeds, only the history changes, and the collection holds min(n+1, 1000) documents drawn from the old ones and the new record |
| DocumentStore.LimitCount | database.py:123 | `limit(0)` returns everything; any other limit returns at most its magnitude, and fewer only when the whole collection is returned |
| DocumentStore.GetHistoricalData | database.py:114-129 | empty when disconnected; otherwise as many documents as the limit allows, newest first, all from the collection |
| DocumentStore.GetHistoricalDataNewest | database.py:120-125 | every document left out by the limit is no newer than every document returned |
| DocumentStore.GetHistoricalDataLimits | database.py:114-125 | `limit(0)` returns every stored document; a limited answer is a prefix of the full answer; a negative limit gives the same answer as its magnitude |
| DocumentStore.SaveMeterData | database.py:131-151 | when disconnected, nothing changes and the call fails; otherwise it succeeds and only the meter collection changes |
| DocumentStore.SaveMeterDataUnique | database.py:138-145 | with unique meter numbers, the stamped document is stored and is the only one with its number |
| DocumentStore.MeterNumber | database.py:142 | the value of the `{'number': data.get('number')}` filter; `SaveMeterDataNullMatch` carries its meaning |
| DocumentStore.SaveMeterDataNullMatch | database.py:141-145 | data whose `number` is missing or null replaces the first stored document whose `number` is missing or null, in either combination, as MongoDB's `None` filter matches both |
| DocumentStore.SaveUsageStats | database.py:169-193 | when disconnected, nothing changes and the call fails; otherwise it succeeds and only the usage collection changes |
| DocumentStore.StatsOfType | database.py:201-210 | the result's keys are exactly the time keys of that type's documents, and a document not followed by a same-keyed one supplies its data |
| DocumentStore.GetUsageStats | database.py:195-198 | disconnected reads return `{}` |
| DocumentStore.StatsMember | database.py:206-208 | with unique identities, every document of the type appears in the result with its data |
| DocumentStore.StatsAgree | database.py:201-208 | the result depends only on which documents of the type are stored, not on their order |
| DocumentStore.StatsAfterUpsert | database.py:183-208 | after an upsert, the documents of the type read as before with the written key mapped to the written data |
| DocumentStore.UsageReadAfterWrite | database.py:169-214 | `save_usage_stats` then `get_usage_stats` returns the old map with the one key overwritten; other types read as before, and identities stay unique |
| DocumentStore.SetToList | database.py:224-225 | `list(s)` holds every member of the set exactly once |
| DocumentStore.GetVisitStats | database.py:244-269 | `{}` when disconnected, when today has no document, or when the stored visitor list holds a list or dict and `set(...)` raises; otherwise the stored keys |
| DocumentStore.Decode | database.py:258-263 | decoding keeps the stored keys, turns a `unique_visitors` list into the set of its items, and leaves every other value as stored |
| DocumentStore.Encode | database.py:222-227 | the stored fields are the given keys plus `updated_at`, which holds the save time whatever the caller put there |
| DocumentStore.DecodeEncode | database.py:222-262 | the stored visitor list is hashable, and decoding the stored fields returns the original statistics with `updated_at` set to the save time, including the visitor set |
| DocumentStore.SaveVisitStats | database.py:216-242 | succeeds iff connected and every value other than `unique_visitors` and the overwritten `updated_at` is BSON-encodable; changes only the visit collection; reading today's stats back returns what was saved with `updated_at` set to the save time |
| DocumentStore.IsConnected | database.py:89-91 | `is_connected()`: both a client and a database handle; `NotConnectedNeutral` states what its absence means for every call |
| DocumentStore.NotConnectedNeutral | database.py:89-91 | without a client and a database, every save fails without effect and every read is empty |
| DataCleaning.Genuine | clean_data.py:31-40 | a record is kept iff it was there and its timestamp does not start with `2025-01` |
| DataCleaning.JanuaryStamp | clean_data.py:35-37 | a timestamp that starts with `2025-01` also contains it, so the record filter is at least as strict as the key filter |
| DataCleaning.JanuaryCount | clean_data.py:32-38 | removed plus kept equals the number of records read |
| DataCleaning.CleanHistory | clean_data.py:31-43 | the loop keeps the genuine records in order, counts the removed ones, and keeps no January record |
| DataCleaning.GenuineAppend | clean_data.py:34-40 | filtering is record by record, so it distributes over concatenation |
| DataCleaning.GenuineIdempotent | clean_data.py:34-40 | cleaning cleaned records removes nothing |
| DataCleaning.CleanUsage | clean_data.py:46-61 | a key is kept, with its value, iff it was there and does not contain `2025-01`; a missing or empty map gives `{}` |
| DataCleaning.CleanUsageIdempotent | clean_data.py:46-61 | cleaning a cleaned map removes nothing |
| DataCleaning.CleanDocument | clean_data.py:64-71 | the rewritten file has all six keys, with the genuine records and the keys free of `2025-01` |
| DataCleaning.CleanDocumentIdempotent | clean_data.py:64-71 | running the script twice writes the same file as running it once |
| DataCleaning.CleanHistoricalData | clean_data.py:12-75 | a missing file is left alone, an undecodable one aborts, and otherwise the backup is the original document |
| DataCleaning.JanuaryMonthText | clean_data.py:37 | the month key equals `2025-01` iff the month is January 2025 |
| DataCleaning.JanuaryTimestamp | clean_data.py:35-37 | an engine timestamp starts with `2025-01` iff it is in January 2025 |
| DataCleaning.DatedKeyJanuary | clean_data.py:54 | a key that starts with a date and has no later `-` contains `2025-01` iff that date is in January 2025 |
| DataCleaning.TenMinuteKeyJanuary | clean_data.py:54 | a ten-minute key is removed iff it lies in January 2025 |
| DataCleaning.HourKeyJanuary | clean_data.py:54 | an hourly key is removed iff it lies in January 2025 |
| DataCleaning.DayKeyJanuary | clean_data.py:54 | a daily key is removed iff it lies in January 2025 |
| DataCleaning.MonthKeyJanuary | clean_data.py:54 | a monthly key is removed iff it is January 2025 |
| DataCleaning.WeekKeyNeverJanuary | clean_data.py:54 | no weekly key ever contains `2025-01`, so no weekly bucket is removed |
| DataCleaning.CleaningEngineOutput | clean_data.py:31-71 | on the engine's own output, the script removes exactly the records and the ten-minute, hourly, daily and monthly buckets of January 2025, and keeps every weekly bucket |

## Left out

- The Flask routes other than the two projections modelled: they only serialise state. So are the lock and the background thread. Their sequential effect is `UsageEngine.RunCycles`.
- The scraper, `latest_data` and `meter_data.json`. The network fetch becomes an optional reading per cycle.
- The `time.sleep(120)` between polls and the wall clock: `now` is a parameter of every operation.
- File I/O and the JSON codec. A read is `Missing`, `Unreadable` or a decoded document. A failed write in `save_historical_data` or in the clean-up script is not modelled.
- JSON `null` stored under one of the six keys: the model treats it as an absent key. The source would fail on a `null` history list in the clean-up script.
- History records that are not dictionaries, or lack a `timestamp` or a `remaining_power`: every record is built by `update_historical_data`, which always sets both. A record loaded from a hand-edited file could lack `remaining_power`, and app.py:203 would read it as 0. The model's `HistoryRecord` always carries the field.
- Buckets loaded from the file that are not objects, or that lack `usage` or `count` (or `peak_power` for a daily bucket): the five rollups are typed maps of complete buckets. In the source, the poll that first touches such a bucket has already appended its record (app.py:194) and may have updated the earlier rollups. The KeyError or TypeError from app.py:212-231 then escapes to the loop's `except` (app.py:59-60), so that poll skips the expiry sweep and the file save (app.py:251-253). A broken bucket keeps failing every poll of its period, because nothing repairs it.
- The fields of a reading other than the three numbers copied into the log.
- `DatabaseManager.__init__`, `_connect`, `_create_indexes`, `get_meter_data`, `get_database_stats`, `close`, `is_database_available` and `get_database_manager`. They are connection set-up, diagnostics or an unordered `find_one`. Only the connection outcome is kept, as the two booleans of `Store`.
- MongoDB exceptions inside a connected call, and `acknowledged` or `inserted_id` being false: connected writes succeed.
- MongoDB's `_id`. The timestamp sort is modelled as stable, so documents with equal timestamps keep insertion order. A real server breaks such ties in an unspecified order.
- DocumentStore.CleanupHistorical: after a clean-up, the collection is kept in timestamp order, not MongoDB's natural order. No modelled read depends on natural order.
- The `created_at` and `updated_at` keys that the source adds to the caller's own dictionary, mutating it: the model builds new documents.
- DocumentStore.SaveVisitStats: the round trip is stated only for statistics whose `unique_visitors` is not already a list, since a list comes back as a set. It also assumes that a `unique_visitors` set has only hashable members, as every Python set does. `RoundTrips` records both conditions.
- DocumentStore.SaveVisitStats: the read-back `updated_at` is stated as the saved moment itself. The source saves a timezone-aware Beijing-time `datetime`. A client with the default `tz_aware=False` stores it as UTC with millisecond precision and returns a naive UTC `datetime`, which never compares equal to the saved value in Python. `JTime` abstracts a BSON datetime without its time zone or sub-millisecond digits.
- DocumentStore.DecodeEncode: the `updated_at` it returns is the same `JTime` abstraction. It does not model the conversion to naive UTC at millisecond precision.
- DocumentStore.UsageReadAfterWrite: a `datetime` inside the saved data would come back converted in the same way. The numeric bucket data the app saves holds none.
- DocumentStore.GetHistoricalData: the `created_at` of each returned document is the insertion moment, not its naive-UTC millisecond read-back.
- DocumentStore.GetVisitStats: Python's `set` treats `True` as `1` and `False` as `0`, so a visitor list holding both `True` and `1` becomes a one-member set. The model keeps `JBool` and `JNum` members distinct.
- BucketKeys: every key assumes that `%Y` is zero-padded to four digits. On glibc-based CPython, years below 1000 print unpadded, so there the key order the lemmas prove would fail for such years.
- The `print` and `logger` messages, the September summary at the end of `clean_data.py`, and its `__main__` block.
- Floating-point arithmetic: quantities are exact reals, so `usage` sums do not round.

=== FILE: calendar.dfy ===
/** The naive local date-time that the engine reads from the clock, with
    the proleptic Gregorian arithmetic of Python's `datetime`: the day
    ordinal (0001-01-01 is day 1), `weekday()`, the `%U` week number, and
    subtraction of whole days, which overflows before 0001-01-01. */
module Calendar {
  import opened Wrappers

  /** A `datetime` without time zone. `weekday()` is not stored: it is
      computed from the date, as Python computes it. */
  datatype Moment = Moment(
    year: int, month: int, day: int,
    hour: int, minute: int, second: int, microsecond: int)

  predicate IsLeap(y: int) {
    y % 4 == 0 && (y % 100 != 0 || y % 400 == 0)
  }

  function DaysInYear(y: int): int {
    if IsLeap(y) then 366 else 365
  }

  function DaysInMonth(y: int, m: int): int
    requires 1 <= m <= 12
  {
    if m == 2 then (if IsLeap(y) then 29 else 28)
    else if m == 4 || m == 6 || m == 9 || m == 11 then 30
    else 31
  }

  /** Days of year `y` before the first of month `m`. */
  function DaysBeforeMonth(y: int, m: int): int
    requires 1 <= m <= 12
  {
    (if m == 1 then 0 else if m == 2 then 31 else if m == 3 then 59
     else if m == 4 then 90 else if m == 5 then 120 else if m == 6 then 151
     else if m == 7 then 181 else if m == 8 then 212 else if m == 9 then 243
     else if m == 10 then 273 else if m == 11 then 304 else 334)
    + (if m > 2 && IsLeap(y) then 1 else 0)
  }

  /** Days before January 1st of year `y`, counted from 0001-01-01. */
  function DaysBeforeYear(y: int): (d: int)
    requires y >= 1
    ensures d >= 0 && (d == 0 <==> y == 1)
  {
    if y == 1 then 0 else DaysBeforeYear(y - 1) + DaysInYear(y - 1)
  }

  /** Stepping the numerator of a floor division by one adds one exactly at
      a multiple of the divisor. */
  lemma DivStep4(z: int)
    requires z >= 0
    ensures (z + 1) / 4 == z / 4 + (if (z + 1) % 4 == 0 then 1 else 0)
  {
  }

  lemma DivStep100(z: int)
    requires z >= 0
    ensures (z + 1) / 100 == z / 100 + (if (z + 1) % 100 == 0 then 1 else 0)
  {
  }

  lemma DivStep400(z: int)
    requires z >= 0
    ensures (z + 1) / 400 == z / 400 + (if (z + 1) % 400 == 0 then 1 else 0)
  {
  }

  /** The three divisibility corrections add up to one leap day. */
  lemma LeapCorrection(x: int)
    requires x >= 1
    ensures (if x % 4 == 0 then 1 else 0) - (if x % 100 == 0 then 1 else 0)
              + (if x % 400 == 0 then 1 else 0) == DaysInYear(x) - 365
  {
    if x % 400 == 0 {
      CenturyOf400(x);
    }
    if x % 100 == 0 {
      QuadOf100(x);
    }
  }

  lemma CenturyOf400(x: int)
    requires x % 400 == 0
    ensures x % 100 == 0
  {
    var q := x / 400;
    assert x == 100 * (4 * q);
  }

  lemma QuadOf100(x: int)
    requires x % 100 == 0
    ensures x % 4 == 0
  {
    var q := x / 100;
    assert x == 4 * (25 * q);
  }

  /** The recursive count agrees with the closed form of `_days_before_year`
      in Python's `datetime` module. */
  lemma {:induction false} DaysBeforeYearClosed(y: int)
    requires y >= 1
    ensures DaysBeforeYear(y) == (y - 1) * 365 + (y - 1) / 4 - (y - 1) / 100 + (y - 1) / 400
    decreases y
  {
    if y > 1 {
      var z := y - 2;
      DaysBeforeYearClosed(y - 1);
      assert DaysBeforeYear(y - 1) == z * 365 + z / 4 - z / 100 + z / 400;
      DivStep4(z);
      DivStep100(z);
      DivStep400(z);
      LeapCorrection(z + 1);
      assert DaysBeforeYear(y) == DaysBeforeYear(y - 1) + DaysInYear(z + 1);
    }
  }

  lemma MonthStep(y: int, m: int)
    requires 1 <= m < 12
    ensures DaysBeforeMonth(y, m + 1) == DaysBeforeMonth(y, m) + DaysInMonth(y, m)
  {
  }

  lemma MonthBounds(y: int, m: int)
    requires 1 <= m <= 12
    ensures DaysBeforeMonth(y, m) + DaysInMonth(y, m) <= DaysInYear(y)
    ensures m == 12 ==> DaysBeforeMonth(y, m) + DaysInMonth(y, m) == DaysInYear(y)
    ensures m > 1 ==> DaysBeforeMonth(y, m) >= 31
  {
  }

  predicate ValidDate(t: Moment) {
    && 1 <= t.year <= 9999
    && 1 <= t.month <= 12
    && 1 <= t.day <= DaysInMonth(t.year, t.month)
  }

  /** The range of values a Python `datetime` can hold. */
  predicate Valid(t: Moment) {
    && ValidDate(t)
    && 0 <= t.hour < 24
    && 0 <= t.minute < 60
    && 0 <= t.second < 60
    && 0 <= t.microsecond < 1000000
  }

  /** `date.toordinal()`: 0001-01-01 is day 1. */
  function Ordinal(t: Moment): (o: int)
    requires ValidDate(t)
    ensures o >= 1
    ensures o == 1 <==> t.year == 1 && t.month == 1 && t.day == 1
  {
    MonthBounds(t.year, t.month);
    DaysBeforeYear(t.year) + DaysBeforeMonth(t.year, t.month) + t.day
  }

  /** `datetime.weekday()`: Monday is 0, Sunday is 6. */
  function Weekday(t: Moment): (w: int)
    requires ValidDate(t)
    ensures 0 <= w < 7
    ensures Ordinal(t) == 1 ==> w == 0
  {
    (Ordinal(t) + 6) % 7
  }

  /** `tm_yday`: days since January 1st of the same year. */
  function YearDay(t: Moment): (d: int)
    requires ValidDate(t)
    ensures 0 <= d < DaysInYear(t.year)
  {
    MonthBounds(t.year, t.month);
    DaysBeforeMonth(t.year, t.month) + t.day - 1
  }

  /** The `%U` field of `strftime`: weeks start on Sunday, and the days of
      January before the first Sunday are week 0. C's `tm_wday` (Sunday is 0)
      is the ordinal modulo 7. */
  function SundayWeek(t: Moment): (u: int)
    requires ValidDate(t)
    ensures 0 <= u <= 53
    ensures YearDay(t) == 0 ==> (u == 1 <==> Weekday(t) == 6)
  {
    (YearDay(t) + 7 - Ordinal(t) % 7) / 7
  }

  /** Calendar order on the date part, most significant field first. */
  predicate DateBefore(a: Moment, b: Moment) {
    || a.year < b.year
    || (a.year == b.year && a.month < b.month)
    || (a.year == b.year && a.month == b.month && a.day < b.day)
  }

  predicate SameTimeOfDay(a: Moment, b: Moment) {
    a.hour == b.hour && a.minute == b.minute
    && a.second == b.second && a.microsecond == b.microsecond
  }

  /** The same clock time one calendar day earlier. */
  function PrevDay(t: Moment): (p: Moment)
    requires ValidDate(t) && Ordinal(t) > 1
    ensures ValidDate(p) && Ordinal(p) == Ordinal(t) - 1
    ensures DateBefore(p, t) && SameTimeOfDay(p, t)
    ensures p.year == t.year ==> YearDay(p) == YearDay(t) - 1
  {
    if t.day > 1 then
      t.(day := t.day - 1)
    else if t.month > 1 then
      MonthStep(t.year, t.month - 1);
      t.(month := t.month - 1, day := DaysInMonth(t.year, t.month - 1))
    else
      MonthBounds(t.year - 1, 12);
      t.(year := t.year - 1, month := 12, day := 31)
  }

  /** `t - timedelta(days=n)`; `None` where Python raises OverflowError
      because the result would fall before 0001-01-01. */
  function SubDays(t: Moment, n: nat): (r: Option<Moment>)
    requires ValidDate(t)
    ensures r.Some? <==> n < Ordinal(t)
    ensures r.Some? ==> ValidDate(r.value) && Ordinal(r.value) == Ordinal(t) - n
    ensures r.Some? ==> SameTimeOfDay(r.value, t)
    decreases n
  {
    if n == 0 then Some(t)
    else if Ordinal(t) == 1 then None
    else SubDays(PrevDay(t), n - 1)
  }

  /** The Monday of the week holding `t`: `t - timedelta(days=t.weekday())`,
      which never overflows because 0001-01-01 was a Monday. */
  function WeekStart(t: Moment): (r: Moment)
    requires ValidDate(t)
    ensures ValidDate(r) && Weekday(r) == 0 && SameTimeOfDay(r, t)
    ensures Ordinal(t) - 7 < Ordinal(r) <= Ordinal(t)
  {
    var o, w := Ordinal(t), Weekday(t);
    MondayArith(o);
    var r := SubDays(t, w).value;
    assert Ordinal(r) == o - w;
    assert Weekday(r) == (o - w + 6) % 7 == 0;
    r
  }

  lemma MondayArith(o: int)
    requires o >= 1
    ensures (o + 6) % 7 < o
    ensures (o - (o + 6) % 7 + 6) % 7 == 0
  {
    if o <= 7 {
      assert (o + 6) % 7 == o - 1;
    }
  }

  /** One step of the subtraction. */
  lemma SubDaysStep(t: Moment, n: nat)
    requires ValidDate(t) && 0 < n && 1 < Ordinal(t)
    ensures SubDays(t, n) == SubDays(PrevDay(t), n - 1)
  {
  }

  /** Subtracting `a + b` days is subtracting `a` days and then `b`. */
  lemma {:induction false} SubDaysSplit(t: Moment, a: nat, b: nat)
    requires ValidDate(t) && a + b < Ordinal(t)
    ensures SubDays(t, a + b) == SubDays(SubDays(t, a).value, b)
    decreases a
  {
    if a > 0 {
      var p := PrevDay(t);
      SubDaysStep(t, a + b);
      assert SubDays(t, a + b) == SubDays(p, (a - 1) + b);
      SubDaysStep(t, a);
      assert SubDays(t, a) == SubDays(p, a - 1);
      SubDaysSplit(p, a - 1, b);
    }
  }

  /** Going back at least one day lands on an earlier date. */
  lemma {:induction false} SubDaysBefore(t: Moment, n: nat)
    requires ValidDate(t) && 1 <= n < Ordinal(t)
    ensures DateBefore(SubDays(t, n).value, t)
    decreases n
  {
    if n > 1 {
      SubDaysBefore(PrevDay(t), n - 1);
    }
  }
}

=== FILE: data_cleaning.dfy ===
/** The one-off cleaning script clean_data.py: it rewrites the history file
    without the January 2025 test data, dropping each history record whose
    timestamp starts with `2025-01` and each rollup bucket whose key
    contains it. */
module DataCleaning {
  import opened Wrappers
  import opened Text
  import opened Calendar
  import opened BucketKeys
  import opened Records
  import opened Rollup
  import opened UsageEngine
  import opened HistoryFile

  const JanuaryPrefix: string := "2025-01"

  /** `record.get('timestamp', '').startswith('2025-01')`. */
  predicate JanuaryStamp(r: HistoryRecord)
    ensures JanuaryStamp(r) ==> Contains(r.timestamp, JanuaryPrefix)
  {
    StartsWith(r.timestamp, JanuaryPrefix)
  }

  /** The records that survive, in their original order. */
  function Genuine(rs: seq<HistoryRecord>): (r: seq<HistoryRecord>)
    ensures |r| <= |rs|
    ensures forall x :: x in r <==> x in rs && !JanuaryStamp(x)
  {
    if |rs| == 0 then []
    else
      var last := rs[|rs| - 1];
      assert rs == rs[..|rs| - 1] + [last];
      Genuine(rs[..|rs| - 1]) + (if JanuaryStamp(last) then [] else [last])
  }

  /** How many records the filter drops. */
  function JanuaryCount(rs: seq<HistoryRecord>): (n: nat)
    ensures n + |Genuine(rs)| == |rs|
  {
    if |rs| == 0 then 0
    else JanuaryCount(rs[..|rs| - 1]) + (if JanuaryStamp(rs[|rs| - 1]) then 1 else 0)
  }

  /** The loop of clean_data.py:31-40: `kept` is the cleaned list and
      `removed` is `removed_count`. */
  method CleanHistory(records: seq<HistoryRecord>) returns (kept: seq<HistoryRecord>, removed: nat)
    ensures kept == Genuine(records)
    ensures removed == JanuaryCount(records)
    ensures removed + |kept| == |records|
    ensures forall i :: 0 <= i < |kept| ==> !JanuaryStamp(kept[i])
  {
    kept, removed := [], 0;
    var i := 0;
    while i < |records|
      invariant 0 <= i <= |records|
      invariant kept == Genuine(records[..i])
      invariant removed == JanuaryCount(records[..i])
    {
      assert records[..i + 1][..i] == records[..i];
      if StartsWith(records[i].timestamp, JanuaryPrefix) {
        removed := removed + 1;
      } else {
        kept := kept + [records[i]];
      }
      i := i + 1;
    }
    assert records[..i] == records;
  }

  /** The filter keeps the relative order of the records it keeps: cleaning
      a concatenation is concatenating the cleaned parts. */
  lemma {:induction false} GenuineAppend(a: seq<HistoryRecord>, b: seq<HistoryRecord>)
    ensures Genuine(a + b) == Genuine(a) + Genuine(b)
    decreases |b|
  {
    if |b| == 0 {
      assert a + b == a;
    } else {
      var b' := b[..|b| - 1];
      assert (a + b)[..|a + b| - 1] == a + b';
      GenuineAppend(a, b');
    }
  }

  /** Cleaning a cleaned log removes nothing more. */
  lemma {:induction false} GenuineIdempotent(rs: seq<HistoryRecord>)
    ensures Genuine(Genuine(rs)) == Genuine(rs)
    decreases |rs|
  {
    if |rs| > 0 {
      var init, last := rs[..|rs| - 1], rs[|rs| - 1];
      GenuineIdempotent(init);
      var tail := if JanuaryStamp(last) then [] else [last];
      GenuineAppend(Genuine(init), tail);
      assert Genuine(tail) == tail by {
        if |tail| == 1 {
          assert tail[..0] == [];
        }
      }
    }
  }

  /** `clean_usage_data(usage_data, name)`: an empty or absent map gives an
      empty map; otherwise every key that contains `2025-01` anywhere is
      dropped and the rest are copied unchanged. */
  function CleanUsage<V>(m: Option<map<string, V>>): (r: map<string, V>)
    ensures forall k :: k in r <==> m.Some? && k in m.value && !Contains(k, JanuaryPrefix)
    ensures forall k :: k in r ==> r[k] == m.value[k]
  {
    if m.None? || |m.value| == 0 then map[]
    else map k | k in m.value && !Contains(k, JanuaryPrefix) :: m.value[k]
  }

  /** Cleaning a cleaned map removes nothing more. */
  lemma CleanUsageIdempotent<V>(m: Option<map<string, V>>)
    ensures CleanUsage(Some(CleanUsage(m))) == CleanUsage(m)
  {
  }

  /** The cleaned document (clean_data.py:64-71): every key is present. */
  function CleanDocument(d: Document): (r: Document)
    ensures r.historicalData.Some? && r.tenMinuteUsage.Some? && r.hourlyUsageData.Some?
    ensures r.dailyUsageData.Some? && r.weeklyUsageData.Some? && r.monthlyUsageData.Some?
    ensures forall x :: x in r.historicalData.value <==>
              x in d.historicalData.GetOr([]) && !JanuaryStamp(x)
    ensures forall k :: k in r.tenMinuteUsage.value <==>
              d.tenMinuteUsage.Some? && k in d.tenMinuteUsage.value && !Contains(k, JanuaryPrefix)
    ensures forall k :: k in r.hourlyUsageData.value <==>
              d.hourlyUsageData.Some? && k in d.hourlyUsageData.value && !Contains(k, JanuaryPrefix)
    ensures forall k :: k in r.dailyUsageData.value <==>
              d.dailyUsageData.Some? && k in d.dailyUsageData.value && !Contains(k, JanuaryPrefix)
    ensures forall k :: k in r.weeklyUsageData.value <==>
              d.weeklyUsageData.Some? && k in d.weeklyUsageData.value && !Contains(k, JanuaryPrefix)
    ensures forall k :: k in r.monthlyUsageData.value <==>
              d.monthlyUsageData.Some? && k in d.monthlyUsageData.value && !Contains(k, JanuaryPrefix)
  {
    Document(
      Some(Genuine(d.historicalData.GetOr([]))),
      Some(CleanUsage(d.tenMinuteUsage)),
      Some(CleanUsage(d.hourlyUsageData)),
      Some(CleanUsage(d.dailyUsageData)),
      Some(CleanUsage(d.weeklyUsageData)),
      Some(CleanUsage(d.monthlyUsageData)))
  }

  /** What running the script does to the file. A missing file is left
      alone; an undecodable one makes the script fail before anything is
      written; otherwise the original is copied to the backup file and the
      cleaned document replaces it. */
  datatype Outcome =
    | NoFile
    | Failed
    | Rewritten(backup: Document, written: Document)

  function CleanHistoricalData(f: FileRead): (o: Outcome)
    ensures f.Missing? <==> o.NoFile?
    ensures f.Unreadable? <==> o.Failed?
    ensures o.Rewritten? ==> o.backup == f.doc
  {
    match f
    case Missing => NoFile
    case Unreadable => Failed
    case Parsed(d) => Rewritten(d, CleanDocument(d))
  }

  /** Running the script twice writes the same file as running it once. */
  lemma CleanDocumentIdempotent(d: Document)
    ensures CleanDocument(CleanDocument(d)) == CleanDocument(d)
  {
    GenuineIdempotent(d.historicalData.GetOr([]));
    CleanUsageIdempotent(d.tenMinuteUsage);
    CleanUsageIdempotent(d.hourlyUsageData);
    CleanUsageIdempotent(d.dailyUsageData);
    CleanUsageIdempotent(d.weeklyUsageData);
    CleanUsageIdempotent(d.monthlyUsageData);
  }

  // ---------------------------------------------------------------------
  // Which of the engine's own strings the script matches

  /** The month text of January 2025. */
  lemma JanuaryMonthText(t: Moment)
    requires ValidDate(t)
    ensures MonthText(t) == JanuaryPrefix <==> t.year == 2025 && t.month == 1
  {
    var jan := Moment(2025, 1, 1, 0, 0, 0, 0);
    assert Pad(2025, 4) == "2025" by {
      assert Pad(2, 1) == "2";
      assert Pad(20, 2) == "20";
      assert Pad(202, 3) == "202";
    }
    assert Pad(1, 2) == "01" by {
      assert Pad(0, 1) == "0";
    }
    assert MonthText(jan) == JanuaryPrefix;
    MonthTextOrder(t, jan);
  }

  /** A history timestamp is dropped exactly when it was taken in January
      2025. */
  lemma JanuaryTimestamp(t: Moment)
    requires Valid(t)
    ensures StartsWith(Isoformat(t), JanuaryPrefix) <==> t.year == 2025 && t.month == 1
  {
    JanuaryMonthText(t);
  }

  /** A string that starts with a date text and has no dash after index 10
      contains `2025-01` only at its start: the pattern's dash can only sit
      on one of the dashes at 4, 7 and 10, and on the latter two the `0`
      before it would sit on a dash as well. */
  lemma DatedKeyJanuary(t: Moment, s: string)
    requires ValidDate(t) && |s| >= 10 && s[..10] == DateText(t)
    requires forall j :: 10 < j < |s| ==> s[j] != '-'
    ensures Contains(s, JanuaryPrefix) <==> t.year == 2025 && t.month == 1
  {
    JanuaryMonthText(t);
    var y, m, d := Pad(t.year, 4), Pad(t.month, 2), Pad(t.day, 2);
    assert s[..10] == y + "-" + m + "-" + d;
    forall j | 0 <= j < 10 && j != 4 && j != 7
      ensures s[j] != '-'
    {
      assert s[j] == s[..10][j];
      if j < 4 {
        assert s[..10][j] == y[j];
      } else if j < 7 {
        assert s[..10][j] == m[j - 5];
      } else {
        assert s[..10][j] == d[j - 8];
      }
    }
    assert s[4] == s[..10][4] && s[7] == s[..10][7];
    assert s[..7] == MonthText(t) by {
      assert s[..7] == s[..10][..7];
    }
    if Contains(s, JanuaryPrefix) {
      ContainsOccurs(s, JanuaryPrefix);
      var i :| OccursAt(s, JanuaryPrefix, i);
      var w := s[i..i + 7];
      assert w == JanuaryPrefix;
      assert s[i + 4] == w[4] == '-';
      assert s[i + 1] == w[1] == '0';
      assert i == 0 || i == 3 || i == 6;
      assert s[..7] == w;
    } else if t.year == 2025 && t.month == 1 {
      assert StartsWith(s, JanuaryPrefix);
    }
  }

  lemma DayKeyJanuary(t: Moment)
    requires Valid(t)
    ensures Contains(DayKey(t), JanuaryPrefix) <==> t.year == 2025 && t.month == 1
  {
    var s := DayKey(t);
    assert s[..10] == s;
    DatedKeyJanuary(t, s);
  }

  lemma HourKeyJanuary(t: Moment)
    requires Valid(t)
    ensures Contains(HourKey(t), JanuaryPrefix) <==> t.year == 2025 && t.month == 1
  {
    var s, h := HourKey(t), Pad(t.hour, 2);
    assert s == DateText(t) + "-" + h;
    forall j | 10 < j < |s| ensures s[j] != '-' {
      assert s[j] == h[j - 11];
    }
    DatedKeyJanuary(t, s);
  }

  lemma TenMinuteKeyJanuary(t: Moment)
    requires Valid(t)
    ensures Contains(TenMinuteKey(t), JanuaryPrefix) <==> t.year == 2025 && t.month == 1
  {
    var f := FloorToTenMinutes(t);
    var s, h, m := TenMinuteKey(t), Pad(f.hour, 2), Pad(f.minute, 2);
    assert s == DateText(f) + " " + h + ":" + m;
    forall j | 10 < j < |s| ensures s[j] != '-' {
      if j < 13 {
        assert s[j] == h[j - 11];
      } else if j > 13 {
        assert s[j] == m[j - 14];
      }
    }
    DatedKeyJanuary(f, s);
  }

  lemma MonthKeyJanuary(t: Moment)
    requires Valid(t)
    ensures Contains(MonthKey(t), JanuaryPrefix) <==> t.year == 2025 && t.month == 1
  {
    JanuaryMonthText(t);
    var s := MonthKey(t);
    if Contains(s, JanuaryPrefix) {
      ContainsOccurs(s, JanuaryPrefix);
      var i :| OccursAt(s, JanuaryPrefix, i);
      assert i == 0 && s[0..7] == s;
    } else if t.year == 2025 && t.month == 1 {
      assert StartsWith(s, JanuaryPrefix);
    }
  }

  /** A `%Y-W%U` key has a `W` where the pattern has its dash or the `0`
      after it, so the script never matches a weekly bucket, including
      those of January 2025. */
  lemma WeekKeyNeverJanuary(t: Moment)
    requires Valid(t)
    ensures !Contains(WeekKey(t), JanuaryPrefix)
  {
    var monday := WeekStart(t);
    var s, y, u := WeekKey(t), Pad(monday.year, 4), Pad(SundayWeek(monday), 2);
    assert s == y + "-W" + u;
    assert s[4] == '-' && s[5] == 'W';
    forall i ensures !OccursAt(s, JanuaryPrefix, i) {
      if 0 <= i && i + 7 <= |s| {
        var w := s[i..i + 7];
        assert w[4] == s[i + 4] && w[5] == s[i + 5];
      }
    }
    AbsentNotContains(s, JanuaryPrefix);
  }

  /** What the script does to a state the engine built: a history record is
      dropped exactly when its clock reading fell in January 2025, and so is
      the ten-minute, hourly, daily or monthly bucket of such a reading,
      while its weekly bucket is kept. */
  lemma CleaningEngineOutput(reading: Reading, t: Moment, s: State)
    requires Valid(t)
    ensures JanuaryStamp(MakeRecord(reading, t)) <==> t.year == 2025 && t.month == 1
    ensures TenMinuteKey(t) in s.tenMinute ==>
              (TenMinuteKey(t) in CleanUsage(Some(s.tenMinute)) <==> !(t.year == 2025 && t.month == 1))
    ensures HourKey(t) in s.hourly ==>
              (HourKey(t) in CleanUsage(Some(s.hourly)) <==> !(t.year == 2025 && t.month == 1))
    ensures DayKey(t) in s.daily ==>
              (DayKey(t) in CleanUsage(Some(s.daily)) <==> !(t.year == 2025 && t.month == 1))
    ensures MonthKey(t) in s.monthly ==>
              (MonthKey(t) in CleanUsage(Some(s.monthly)) <==> !(t.year == 2025 && t.month == 1))
    ensures WeekKey(t) in s.weekly ==> WeekKey(t) in CleanUsage(Some(s.weekly))
  {
    JanuaryTimestamp(t);
    TenMinuteKeyJanuary(t);
    HourKeyJanuary(t);
    DayKeyJanuary(t);
    MonthKeyJanuary(t);
    WeekKeyNeverJanuary(t);
  }
}

=== FILE: document_store.dfy ===
/** `DatabaseManager` of database.py with the MongoDB server replaced by an
    in-memory state: four collections held as sequences of documents, in
    their natural (insertion) order. Every operation is a pure function of
    the store (or, for the visit statistics, a method) returning the new
    store and the value the source returns. The clock reading is a
    parameter; network failures are not modelled. */
module DocumentStore {
  import opened Wrappers
  import opened Text
  import opened Calendar
  import opened BucketKeys
  import opened Records

  /** A BSON value as the collections store it. */
  datatype Json =
    | JNull
    | JBool(b: bool)
    | JNum(n: real)
    | JStr(s: string)
    | JTime(t: Moment)  // a BSON datetime, taken without time zone or precision loss
    | JList(items: seq<Json>)
    | JObject(fields: map<string, Json>)

  /** A Python value in the in-memory visit statistics: anything BSON can
      hold, or a `set`, which BSON cannot. */
  datatype Value = Plain(json: Json) | SetOf(members: set<Json>)

  /** A document of `historical_data`: the record with `created_at` added.
      MongoDB's `_id` is fresh on every insert and never returned, so it is
      left out. */
  datatype Entry = Entry(record: HistoryRecord, createdAt: Moment)

  /** A document of `usage_stats`. */
  datatype UsageDoc = UsageDoc(statType: string, timeKey: string, data: Json, updatedAt: Moment)

  /** A document of `visit_stats`. */
  datatype VisitDoc = VisitDoc(date: string, stats: map<string, Json>)

  /** `client` and `db` record whether `MongoClient(...)` and the database
      handle were obtained: a failed `ping` leaves a client without a db. */
  datatype Store = Store(
    client: bool,
    db: bool,
    history: seq<Entry>,
    usage: seq<UsageDoc>,
    meters: seq<map<string, Json>>,
    visits: seq<VisitDoc>)

  /** `_cleanup_historical_data`'s default `max_records`. */
  const MaxRecords: nat := 1000

  function Min(a: int, b: int): int {
    if a <= b then a else b
  }

  /** `is_connected()`. */
  predicate IsConnected(st: Store) {
    st.client && st.db
  }

  // ---------------------------------------------------------------------
  // replace_one(filter, doc, upsert=True)

  /** Index of the first document whose identity is `k`, or `|docs|`. */
  function Find<T, K(==)>(docs: seq<T>, id: T -> K, k: K): (i: nat)
    ensures i <= |docs|
    ensures forall j :: 0 <= j < i ==> id(docs[j]) != k
    ensures i < |docs| ==> id(docs[i]) == k
  {
    if |docs| == 0 then 0
    else if id(docs[0]) == k then 0
    else 1 + Find(docs[1..], id, k)
  }

  /** Replace the first document matching the filter, or append when none
      matches. */
  function ReplaceOne<T, K(==)>(docs: seq<T>, id: T -> K, k: K, doc: T): (r: seq<T>)
    ensures Find(docs, id, k) < |docs| ==> r == docs[Find(docs, id, k) := doc]
    ensures Find(docs, id, k) == |docs| ==> r == docs + [doc]
  {
    if |docs| == 0 then [doc]
    else if id(docs[0]) == k then [doc] + docs[1..]
    else [docs[0]] + ReplaceOne(docs[1..], id, k, doc)
  }

  /** No two documents share an identity. */
  predicate Unique<T, K(==)>(docs: seq<T>, id: T -> K) {
    forall i, j :: 0 <= i < j < |docs| ==> id(docs[i]) != id(docs[j])
  }

  /** An upsert keeps identities unique, leaves exactly one document with
      the written identity, that document being the one written, and keeps
      every document of another identity. */
  lemma ReplaceOneUnique<T, K>(docs: seq<T>, id: T -> K, k: K, doc: T)
    requires Unique(docs, id) && id(doc) == k
    ensures Unique(ReplaceOne(docs, id, k, doc), id)
    ensures doc in ReplaceOne(docs, id, k, doc)
    ensures forall i :: 0 <= i < |ReplaceOne(docs, id, k, doc)| && id(ReplaceOne(docs, id, k, doc)[i]) == k
              ==> ReplaceOne(docs, id, k, doc)[i] == doc
    ensures forall d :: d in docs && id(d) != k ==> d in ReplaceOne(docs, id, k, doc)
    ensures forall d :: d in ReplaceOne(docs, id, k, doc) && id(d) != k ==> d in docs
    ensures |ReplaceOne(docs, id, k, doc)| == |docs| + (if Find(docs, id, k) < |docs| then 0 else 1)
  {
    var p := Find(docs, id, k);
    var r := ReplaceOne(docs, id, k, doc);
    if p < |docs| {
      forall i | 0 <= i < |r| && i != p ensures id(r[i]) != k {
        assert r[i] == docs[i];
        if i < p {
          assert id(docs[i]) != id(docs[p]);
        } else {
          assert id(docs[p]) != id(docs[i]);
        }
      }
      forall d | d in docs && id(d) != k ensures d in r {
        var i :| 0 <= i < |docs| && docs[i] == d;
        assert r[i] == d;
      }
    } else {
      assert r[|docs|] == doc;
    }
  }

  /** The first document with identity `k` after an upsert is the one
      written. */
  lemma ReplaceOneFind<T, K>(docs: seq<T>, id: T -> K, k: K, doc: T)
    requires id(doc) == k
    ensures var r := ReplaceOne(docs, id, k, doc);
            Find(r, id, k) < |r| && r[Find(r, id, k)] == doc
  {
    var p := Find(docs, id, k);
    var r := ReplaceOne(docs, id, k, doc);
    assert id(r[p]) == k;
    forall j | 0 <= j < p ensures id(r[j]) != k {
      assert r[j] == docs[j];
    }
  }

  // ---------------------------------------------------------------------
  // Ordering history documents by timestamp

  function Stamp(e: Entry): string {
    e.record.timestamp
  }

  /** `a` may precede `b` in a sort by `timestamp`, ascending or descending. */
  predicate InOrder(a: Entry, b: Entry, descending: bool) {
    if descending then LessEq(Stamp(b), Stamp(a)) else LessEq(Stamp(a), Stamp(b))
  }

  lemma InOrderTotal(a: Entry, b: Entry, descending: bool)
    ensures InOrder(a, b, descending) || InOrder(b, a, descending)
  {
    LessTotal(Stamp(a), Stamp(b));
  }

  predicate Sorted(s: seq<Entry>, descending: bool) {
    forall i, j :: 0 <= i < j < |s| ==> InOrder(s[i], s[j], descending)
  }

  /** Place `e` before the first element it may precede, so that among
      equal timestamps earlier-inserted documents come first. */
  function Insert(e: Entry, s: seq<Entry>, descending: bool): (r: seq<Entry>)
    requires Sorted(s, descending)
    ensures Sorted(r, descending)
    ensures |r| == |s| + 1
    ensures multiset(r) == multiset(s) + multiset{e}
  {
    if |s| == 0 then [e]
    else if InOrder(e, s[0], descending) then
      forall y | y in s ensures InOrder(e, y, descending) {
        InOrderTransitive(e, s[0], y, descending);
      }
      SortedCons(e, s, descending);
      [e] + s
    else
      InOrderTotal(e, s[0], descending);
      var rest := Insert(e, s[1..], descending);
      assert s == [s[0]] + s[1..];
      forall y | y in rest ensures InOrder(s[0], y, descending) {
        assert y in multiset(rest);
        if y != e {
          assert y in s[1..];
        }
      }
      SortedCons(s[0], rest, descending);
      [s[0]] + rest
  }

  lemma InOrderTransitive(a: Entry, b: Entry, c: Entry, descending: bool)
    requires InOrder(a, b, descending) && InOrder(b, c, descending)
    ensures InOrder(a, c, descending)
  {
    if descending {
      LessEqTransitive(Stamp(c), Stamp(b), Stamp(a));
    } else {
      LessEqTransitive(Stamp(a), Stamp(b), Stamp(c));
    }
  }

  lemma SortedCons(x: Entry, s: seq<Entry>, descending: bool)
    requires Sorted(s, descending)
    requires forall y :: y in s ==> InOrder(x, y, descending)
    ensures Sorted([x] + s, descending)
  {
    var r := [x] + s;
    forall i, j | 0 <= i < j < |r| ensures InOrder(r[i], r[j], descending) {
      if i == 0 {
        assert r[j] == s[j - 1] && s[j - 1] in s;
      } else {
        assert r[i] == s[i - 1] && r[j] == s[j - 1];
      }
    }
  }

  /** The stable sort of a collection by timestamp. */
  function Sort(s: seq<Entry>, descending: bool): (r: seq<Entry>)
    ensures Sorted(r, descending)
    ensures |r| == |s|
    ensures multiset(r) == multiset(s)
  {
    if |s| == 0 then []
    else
      assert s == [s[0]] + s[1..];
      Insert(s[0], Sort(s[1..], descending), descending)
  }

  /** Splitting a sorted sequence: everything in the prefix may precede
      everything in the suffix. */
  lemma SortedSplit(s: seq<Entry>, n: nat, descending: bool)
    requires Sorted(s, descending) && n <= |s|
    ensures forall x, y :: x in s[..n] && y in s[n..] ==> InOrder(x, y, descending)
  {
    forall x, y | x in s[..n] && y in s[n..] ensures InOrder(x, y, descending) {
      var i :| 0 <= i < n && s[..n][i] == x;
      var j :| 0 <= j < |s| - n && s[n..][j] == y;
      assert s[i] == x && s[n + j] == y;
    }
  }

  // ---------------------------------------------------------------------
  // historical_data

  /** `_cleanup_historical_data(max_records)`: when more than `max` documents
      are stored, the `count - max` with the smallest timestamps are
      deleted. The survivors are kept in timestamp order, which no read
      observes (every read sorts). */
  function CleanupHistorical(h: seq<Entry>, max: nat): (r: seq<Entry>)
    ensures |r| == Min(|h|, max)
    ensures |h| <= max ==> r == h
    ensures multiset(r) <= multiset(h)
  {
    if |h| <= max then h
    else
      var sorted := Sort(h, false);
      assert sorted == sorted[..|h| - max] + sorted[|h| - max..];
      sorted[|h| - max..]
  }

  /** What the trim deletes: documents none of which has a later timestamp
      than any survivor. */
  lemma CleanupRemovesOldest(h: seq<Entry>, max: nat)
    requires |h| > max
    ensures var removed := Sort(h, false)[..|h| - max];
            && |removed| == |h| - max
            && multiset(removed) + multiset(CleanupHistorical(h, max)) == multiset(h)
            && forall x, y :: x in removed && y in CleanupHistorical(h, max) ==>
                 LessEq(Stamp(x), Stamp(y))
  {
    var sorted := Sort(h, false);
    assert sorted == sorted[..|h| - max] + sorted[|h| - max..];
    SortedSplit(sorted, |h| - max, false);
  }

  /** `save_historical_record(record)`: insert with `created_at`, then trim
      to the newest 1000. */
  function SaveHistoricalRecord(st: Store, rec: HistoryRecord, now: Moment): (r: (Store, bool))
    ensures !IsConnected(st) ==> r == (st, false)
    ensures IsConnected(st) ==> r.1 && r.0.(history := st.history) == st
    ensures IsConnected(st) ==> |r.0.history| == Min(|st.history| + 1, MaxRecords)
    ensures multiset(r.0.history) <= multiset(st.history) + multiset{Entry(rec, now)}
  {
    if !IsConnected(st) then (st, false)
    else (st.(history := CleanupHistorical(st.history + [Entry(rec, now)], MaxRecords)), true)
  }

  /** pymongo's `limit`: 0 means no limit, a negative one its magnitude. */
  function LimitCount(available: nat, limit: int): (n: nat)
    ensures n <= available
    ensures limit == 0 ==> n == available
    ensures limit != 0 ==> n <= Magnitude(limit)
    ensures n < Magnitude(limit) ==> n == available
  {
    if limit == 0 then available
    else Min(available, Magnitude(limit))
  }

  function Magnitude(x: int): nat {
    if x < 0 then -x else x
  }

  /** `get_historical_data(limit)`: the newest documents first. */
  function GetHistoricalData(st: Store, limit: int): (r: seq<Entry>)
    ensures !IsConnected(st) ==> r == []
    ensures IsConnected(st) ==> |r| == LimitCount(|st.history|, limit)
    ensures Sorted(r, true)
    ensures multiset(r) <= multiset(st.history)
  {
    if !IsConnected(st) then []
    else
      var sorted := Sort(st.history, true);
      var n := LimitCount(|sorted|, limit);
      assert sorted == sorted[..n] + sorted[n..];
      sorted[..n]
  }

  /** Nothing newer than what is returned is left out. */
  lemma GetHistoricalDataNewest(st: Store, limit: int)
    requires IsConnected(st)
    ensures forall e, x ::
              (e in st.history && e !in GetHistoricalData(st, limit) && x in GetHistoricalData(st, limit))
              ==> LessEq(Stamp(e), Stamp(x))
  {
    var sorted := Sort(st.history, true);
    var n := LimitCount(|sorted|, limit);
    assert sorted == sorted[..n] + sorted[n..];
    SortedSplit(sorted, n, true);
    forall e | e in st.history && e !in sorted[..n] ensures e in sorted[n..] {
      assert e in multiset(sorted);
    }
  }

  /** `limit(0)` returns the whole collection, any other limit returns the
      first documents of that full answer, and the sign of a limit does not
      matter. */
  lemma GetHistoricalDataLimits(st: Store, k: int)
    requires IsConnected(st)
    ensures multiset(GetHistoricalData(st, 0)) == multiset(st.history)
    ensures GetHistoricalData(st, k)
              == GetHistoricalData(st, 0)[..|GetHistoricalData(st, k)|]
    ensures GetHistoricalData(st, -k) == GetHistoricalData(st, k)
  {
    var sorted := Sort(st.history, true);
    assert sorted[..|sorted|] == sorted;
  }

  // ---------------------------------------------------------------------
  // meter_data

  /** The value the filter `{'number': data.get('number')}` compares with:
      MongoDB matches `None` against a null field and a missing one alike. */
  function MeterNumber(doc: map<string, Json>): (r: Option<Json>)
    ensures r.None? <==> "number" !in doc || doc["number"] == JNull
    ensures r.Some? ==> doc["number"] == r.value
  {
    if "number" in doc && doc["number"] != JNull then Some(doc["number"]) else None
  }

  /** `save_meter_data(data)`: the document is replaced wholesale. */
  function SaveMeterData(st: Store, data: map<string, Json>, now: Moment): (r: (Store, bool))
    ensures !IsConnected(st) ==> r == (st, false)
    ensures IsConnected(st) ==> r.1 && r.0.(meters := st.meters) == st
  {
    if !IsConnected(st) then (st, false)
    else
      var doc := data["updated_at" := JTime(now)];
      (st.(meters := ReplaceOne(st.meters, MeterNumber, MeterNumber(data), doc)), true)
  }

  /** At most one meter document per number, and after a save it is exactly
      the saved data stamped with `updated_at`. */
  lemma SaveMeterDataUnique(st: Store, data: map<string, Json>, now: Moment)
    requires IsConnected(st) && Unique(st.meters, MeterNumber)
    ensures var m := SaveMeterData(st, data, now).0.meters;
            && Unique(m, MeterNumber)
            && data["updated_at" := JTime(now)] in m
            && forall d :: d in m && MeterNumber(d) == MeterNumber(data) ==>
                 d == data["updated_at" := JTime(now)]
  {
    var doc := data["updated_at" := JTime(now)];
    assert MeterNumber(doc) == MeterNumber(data);
    ReplaceOneUnique(st.meters, MeterNumber, MeterNumber(data), doc);
  }

  /** Saving data whose `number` is missing or null replaces the first
      stored document whose `number` is missing or null, whichever of the
      two each side has: the filter `{'number': None}` does not tell them
      apart. */
  lemma SaveMeterDataNullMatch(st: Store, data: map<string, Json>, now: Moment, i: nat)
    requires IsConnected(st)
    requires "number" !in data || data["number"] == JNull
    requires i < |st.meters|
    requires "number" !in st.meters[i] || st.meters[i]["number"] == JNull
    requires forall j :: 0 <= j < i ==> "number" in st.meters[j] && st.meters[j]["number"] != JNull
    ensures SaveMeterData(st, data, now).0.meters == st.meters[i := data["updated_at" := JTime(now)]]
  {
    assert MeterNumber(st.meters[i]) == None;
  }

  // ---------------------------------------------------------------------
  // usage_stats

  function UsageId(d: UsageDoc): (string, string) {
    (d.statType, d.timeKey)
  }

  /** `save_usage_stats(stat_type, time_key, data)`. */
  function SaveUsageStats(st: Store, t: string, k: string, data: Json, now: Moment): (r: (Store, bool))
    ensures !IsConnected(st) ==> r == (st, false)
    ensures IsConnected(st) ==> r.1 && r.0.(usage := st.usage) == st
  {
    if !IsConnected(st) then (st, false)
    else (st.(usage := ReplaceOne(st.usage, UsageId, (t, k), UsageDoc(t, k, data, now))), true)
  }

  /** The loop of `get_usage_stats`: `result[doc['time_key']] = doc['data']`
      over the documents of type `t` in natural order, so the last one of a
      key wins. */
  function StatsOfType(docs: seq<UsageDoc>, t: string): (r: map<string, Json>)
    ensures forall k :: k in r <==>
              exists i :: 0 <= i < |docs| && docs[i].statType == t && docs[i].timeKey == k
    ensures forall i :: 0 <= i < |docs| && docs[i].statType == t
              && (forall j :: i < j < |docs| ==> UsageId(docs[j]) != UsageId(docs[i]))
              ==> r[docs[i].timeKey] == docs[i].data
  {
    if |docs| == 0 then map[]
    else
      var init, d := docs[..|docs| - 1], docs[|docs| - 1];
      var m := StatsOfType(init, t);
      var r := if d.statType == t then m[d.timeKey := d.data] else m;
      StatsStep(docs, init, t, m, r);
      r
  }

  /** The inductive step of `StatsOfType`: folding the last document into the
      map built from the others. */
  lemma StatsStep(docs: seq<UsageDoc>, init: seq<UsageDoc>, t: string,
                  m: map<string, Json>, r: map<string, Json>)
    requires |docs| > 0 && init == docs[..|docs| - 1]
    requires forall k :: k in m <==>
               exists i :: 0 <= i < |init| && init[i].statType == t && init[i].timeKey == k
    requires forall i :: 0 <= i < |init| && init[i].statType == t
               && (forall j :: i < j < |init| ==> UsageId(init[j]) != UsageId(init[i]))
               ==> m[init[i].timeKey] == init[i].data
    requires r == if docs[|docs| - 1].statType == t
                  then m[docs[|docs| - 1].timeKey := docs[|docs| - 1].data] else m
    ensures forall k :: k in r <==>
              exists i :: 0 <= i < |docs| && docs[i].statType == t && docs[i].timeKey == k
    ensures forall i :: 0 <= i < |docs| && docs[i].statType == t
              && (forall j :: i < j < |docs| ==> UsageId(docs[j]) != UsageId(docs[i]))
              ==> r[docs[i].timeKey] == docs[i].data
  {
    var n := |docs| - 1;
    var d := docs[n];
    forall k ensures k in r <==>
        exists i :: 0 <= i < |docs| && docs[i].statType == t && docs[i].timeKey == k
    {
      if k in r {
        if d.statType == t && k == d.timeKey {
          assert docs[n].statType == t && docs[n].timeKey == k;
        } else {
          assert k in m;
          var i :| 0 <= i < n && init[i].statType == t && init[i].timeKey == k;
          assert docs[i] == init[i];
        }
      }
      if exists i :: 0 <= i < |docs| && docs[i].statType == t && docs[i].timeKey == k {
        var i :| 0 <= i < |docs| && docs[i].statType == t && docs[i].timeKey == k;
        if i < n {
          assert init[i] == docs[i];
          assert k in m;
        }
      }
    }
    forall i | 0 <= i < |docs| && docs[i].statType == t
        && (forall j :: i < j < |docs| ==> UsageId(docs[j]) != UsageId(docs[i]))
      ensures docs[i].timeKey in r && r[docs[i].timeKey] == docs[i].data
    {
      if i < n {
        assert UsageId(d) != UsageId(docs[i]);
        assert init[i] == docs[i];
        forall j | i < j < n ensures UsageId(init[j]) != UsageId(init[i]) {
          assert init[j] == docs[j];
        }
        assert docs[i].timeKey in m && m[docs[i].timeKey] == docs[i].data;
      }
    }
  }

  /** `get_usage_stats(stat_type)`. */
  function GetUsageStats(st: Store, t: string): (r: map<string, Json>)
    ensures !IsConnected(st) ==> r == map[]
  {
    if !IsConnected(st) then map[] else StatsOfType(st.usage, t)
  }

  /** With unique identities, each document of type `t` is what the stats
      of `t` report for its key. */
  lemma StatsMember(docs: seq<UsageDoc>, t: string, d: UsageDoc)
    requires Unique(docs, UsageId) && d in docs && d.statType == t
    ensures d.timeKey in StatsOfType(docs, t) && StatsOfType(docs, t)[d.timeKey] == d.data
  {
    var i :| 0 <= i < |docs| && docs[i] == d;
  }

  /** Every key the stats of `t` report comes from a document of type `t`. */
  lemma StatsWitness(docs: seq<UsageDoc>, t: string, key: string) returns (d: UsageDoc)
    requires key in StatsOfType(docs, t)
    ensures d in docs && d.statType == t && d.timeKey == key
  {
    var i :| 0 <= i < |docs| && docs[i].statType == t && docs[i].timeKey == key;
    d := docs[i];
  }

  /** Two duplicate-free collections holding the same documents of type `t`
      report the same stats for `t`. */
  lemma StatsAgree(docs: seq<UsageDoc>, docs': seq<UsageDoc>, t: string)
    requires Unique(docs, UsageId) && Unique(docs', UsageId)
    requires forall d: UsageDoc :: d.statType == t ==> (d in docs <==> d in docs')
    ensures StatsOfType(docs, t) == StatsOfType(docs', t)
  {
    var a, b := StatsOfType(docs, t), StatsOfType(docs', t);
    forall key | key in a ensures key in b && b[key] == a[key] {
      var d := StatsWitness(docs, t, key);
      StatsMember(docs, t, d);
      StatsMember(docs', t, d);
    }
    forall key | key in b ensures key in a {
      var d := StatsWitness(docs', t, key);
      StatsMember(docs, t, d);
    }
  }

  /** The written type: the old stats with `k` set to `data`. */
  lemma StatsAfterUpsert(docs: seq<UsageDoc>, t: string, k: string, data: Json, now: Moment)
    requires Unique(docs, UsageId)
    ensures StatsOfType(ReplaceOne(docs, UsageId, (t, k), UsageDoc(t, k, data, now)), t)
              == StatsOfType(docs, t)[k := data]
  {
    var doc := UsageDoc(t, k, data, now);
    ReplaceOneUnique(docs, UsageId, (t, k), doc);
    StatsReplaced(docs, ReplaceOne(docs, UsageId, (t, k), doc), doc);
  }

  /** Two duplicate-free collections that differ only in the document with
      the identity of `doc`, which the second holds, report the same stats
      for its type except at its key. */
  lemma StatsReplaced(docs: seq<UsageDoc>, docs': seq<UsageDoc>, doc: UsageDoc)
    requires Unique(docs, UsageId) && Unique(docs', UsageId) && doc in docs'
    requires forall d :: d in docs' && UsageId(d) != UsageId(doc) ==> d in docs
    requires forall d :: d in docs && UsageId(d) != UsageId(doc) ==> d in docs'
    ensures StatsOfType(docs', doc.statType) == StatsOfType(docs, doc.statType)[doc.timeKey := doc.data]
  {
    var t, k := doc.statType, doc.timeKey;
    StatsMember(docs', t, doc);
    OtherKeysKept(docs, docs', t, k);
    OtherKeysKept(docs', docs, t, k);
    var before, after := StatsOfType(docs, t), StatsOfType(docs', t);
    assert after.Keys == before[k := doc.data].Keys;
  }

  /** Every key other than `k` reported from `docs'` is reported from `docs`
      with the same data. */
  lemma OtherKeysKept(docs: seq<UsageDoc>, docs': seq<UsageDoc>, t: string, k: string)
    requires Unique(docs, UsageId) && Unique(docs', UsageId)
    requires forall d :: d in docs' && UsageId(d) != (t, k) ==> d in docs
    ensures forall key :: key in StatsOfType(docs', t) && key != k ==>
              key in StatsOfType(docs, t) && StatsOfType(docs, t)[key] == StatsOfType(docs', t)[key]
  {
    forall key | key in StatsOfType(docs', t) && key != k
      ensures key in StatsOfType(docs, t) && StatsOfType(docs, t)[key] == StatsOfType(docs', t)[key]
    {
      OtherKeyKept(docs, docs', t, k, key);
    }
  }

  /** A key other than `k` that one duplicate-free collection reports, the
      other reports with the same data, when the two agree on every
      document whose identity is not `(t, k)`. */
  lemma OtherKeyKept(docs: seq<UsageDoc>, docs': seq<UsageDoc>, t: string, k: string, key: string)
    requires Unique(docs, UsageId) && Unique(docs', UsageId)
    requires forall d :: d in docs' && UsageId(d) != (t, k) ==> d in docs
    requires key != k && key in StatsOfType(docs', t)
    ensures key in StatsOfType(docs, t) && StatsOfType(docs, t)[key] == StatsOfType(docs', t)[key]
  {
    var d := StatsWitness(docs', t, key);
    StatsMember(docs', t, d);
    StatsMember(docs, t, d);
  }

  /** Read after write: saving `(t, k, data)` makes `get_usage_stats(t)`
      return the old stats with `k` set to `data`; the stats of every other
      type are unchanged; identities stay unique. */
  lemma UsageReadAfterWrite(st: Store, t: string, k: string, data: Json, now: Moment)
    requires IsConnected(st) && Unique(st.usage, UsageId)
    ensures Unique(SaveUsageStats(st, t, k, data, now).0.usage, UsageId)
    ensures GetUsageStats(SaveUsageStats(st, t, k, data, now).0, t) == GetUsageStats(st, t)[k := data]
    ensures forall t' :: t' != t ==>
              GetUsageStats(SaveUsageStats(st, t, k, data, now).0, t') == GetUsageStats(st, t')
  {
    var doc := UsageDoc(t, k, data, now);
    var docs' := ReplaceOne(st.usage, UsageId, (t, k), doc);
    ReplaceOneUnique(st.usage, UsageId, (t, k), doc);
    StatsAfterUpsert(st.usage, t, k, data, now);
    forall t' | t' != t ensures StatsOfType(docs', t') == StatsOfType(st.usage, t') {
      StatsAgree(st.usage, docs', t');
    }
  }

  // ---------------------------------------------------------------------
  // visit_stats

  const VisitorsField: string := "unique_visitors"
  const UpdatedField: string := "updated_at"

  /** BSON can encode the statistics: only `unique_visitors` may be a set,
      since only it is converted, and `updated_at` is overwritten before the
      write whatever it held; any other set makes `replace_one` raise, which
      the method reports as a failed save. */
  predicate Encodable(stats: map<string, Value>) {
    forall k :: k in stats && k != VisitorsField && k != UpdatedField ==> stats[k].Plain?
  }

  /** Python's `hash()` accepts the value: lists and dicts raise TypeError. */
  predicate Hashable(j: Json) {
    !j.JList? && !j.JObject?
  }

  /** `set(stats['unique_visitors'])` succeeds: a stored visitor list holds
      only hashable members. */
  predicate Decodable(fields: map<string, Json>) {
    VisitorsField in fields && fields[VisitorsField].JList? ==>
      forall i :: 0 <= i < |fields[VisitorsField].items| ==> Hashable(fields[VisitorsField].items[i])
  }

  function VisitDate(d: VisitDoc): string {
    d.date
  }

  /** `list(s)`: the members of `s`, each once, in some order. */
  method SetToList(s: set<Json>) returns (l: seq<Json>)
    ensures forall x :: x in l <==> x in s
    ensures |l| == |s|
    ensures forall i, j :: 0 <= i < j < |l| ==> l[i] != l[j]
  {
    l := [];
    var rest := s;
    while rest != {}
      invariant rest <= s
      invariant forall x :: x in l <==> x in s && x !in rest
      invariant |l| + |rest| == |s|
      invariant forall i, j :: 0 <= i < j < |l| ==> l[i] != l[j]
      decreases |rest|
    {
      var x :| x in rest;
      l := l + [x];
      rest := rest - {x};
    }
  }

  /** `get_visit_stats()`: today's document, with a `unique_visitors` list
      turned back into a set. */
  function GetVisitStats(st: Store, now: Moment): (r: map<string, Value>)
    requires ValidDate(now)
    ensures !IsConnected(st) ==> r == map[]
    ensures IsConnected(st) && Find(st.visits, VisitDate, DateText(now)) == |st.visits| ==> r == map[]
    ensures IsConnected(st) && Find(st.visits, VisitDate, DateText(now)) < |st.visits| ==>
              var fields := st.visits[Find(st.visits, VisitDate, DateText(now))].stats;
              (Decodable(fields) ==> r.Keys == fields.Keys) && (!Decodable(fields) ==> r == map[])
  {
    if !IsConnected(st) then map[]
    else
      var i := Find(st.visits, VisitDate, DateText(now));
      if i == |st.visits| then map[]
      else if !Decodable(st.visits[i].stats) then map[]
      else Decode(st.visits[i].stats)
  }

  /** The conversion back from stored fields: a `unique_visitors` list
      becomes a set. */
  function Decode(fields: map<string, Json>): (r: map<string, Value>)
    ensures r.Keys == fields.Keys
    ensures VisitorsField in fields && fields[VisitorsField].JList? ==>
              r[VisitorsField].SetOf? &&
              forall x :: x in r[VisitorsField].members <==> x in fields[VisitorsField].items
    ensures forall k :: k in fields && !(k == VisitorsField && fields[k].JList?) ==>
              r[k] == Plain(fields[k])
  {
    map k | k in fields ::
      if k == VisitorsField && fields[k].JList? then SetOf(set x | x in fields[k].items)
      else Plain(fields[k])
  }

  /** The statistics survive the save/get round trip (with `updated_at`
      stamped in): a `unique_visitors` set comes back as the same set. A
      `unique_visitors` that was a list comes back as a set instead. */
  predicate RoundTrips(stats: map<string, Value>) {
    && (VisitorsField in stats ==> !(stats[VisitorsField].Plain? && stats[VisitorsField].json.JList?))
    && (VisitorsField in stats && stats[VisitorsField].SetOf? ==> HashableSet(stats[VisitorsField].members))
  }

  /** A Python set holds only hashable members; a `SetOf` with a list or a
      dict among its members stands for no Python value. */
  predicate HashableSet(members: set<Json>) {
    forall x :: x in members ==> Hashable(x)
  }

  /** `save_visit_stats(stats)`: keyed by today's date. */
  method SaveVisitStats(st: Store, stats: map<string, Value>, now: Moment) returns (st': Store, ok: bool)
    requires ValidDate(now)
    ensures ok <==> IsConnected(st) && Encodable(stats)
    ensures !ok ==> st' == st
    ensures st'.(visits := st.visits) == st
    ensures ok && RoundTrips(stats) ==>
              GetVisitStats(st', now) == stats[UpdatedField := Plain(JTime(now))]
  {
    if !IsConnected(st) || !Encodable(stats) {
      return st, false;
    }
    var visitors: seq<Json> := [];
    if VisitorsField in stats && stats[VisitorsField].SetOf? {
      visitors := SetToList(stats[VisitorsField].members);
      assert (set x | x in visitors) == stats[VisitorsField].members;
    }
    var key := DateText(now);
    var doc := VisitDoc(key, Encode(stats, visitors, now));
    st' := st.(visits := ReplaceOne(st.visits, VisitDate, key, doc));
    ok := true;
    ReplaceOneFind(st.visits, VisitDate, key, doc);
    if RoundTrips(stats) {
      DecodeEncode(stats, visitors, now);
    }
  }

  /** The stored fields: the plain values, `unique_visitors` as the list
      `visitors` when it was a set, and `updated_at` stamped with `now`. */
  function Encode(stats: map<string, Value>, visitors: seq<Json>, now: Moment)
    : (fields: map<string, Json>)
    requires Encodable(stats)
    ensures fields.Keys == stats.Keys + {UpdatedField}
    ensures fields[UpdatedField] == JTime(now)
  {
    var plain := map k | k in stats && stats[k].Plain? :: stats[k].json;
    var listed := if VisitorsField in stats && stats[VisitorsField].SetOf?
                  then plain[VisitorsField := JList(visitors)] else plain;
    listed[UpdatedField := JTime(now)]
  }

  /** Decoding the stored fields gives back the statistics, provided
      `visitors` lists exactly the members of the `unique_visitors` set. */
  lemma DecodeEncode(stats: map<string, Value>, visitors: seq<Json>, now: Moment)
    requires Encodable(stats) && RoundTrips(stats)
    requires VisitorsField in stats && stats[VisitorsField].SetOf? ==>
               (set x | x in visitors) == stats[VisitorsField].members
    ensures Decodable(Encode(stats, visitors, now))
    ensures Decode(Encode(stats, visitors, now)) == stats[UpdatedField := Plain(JTime(now))]
  {
    var fields := Encode(stats, visitors, now);
    if VisitorsField in stats && stats[VisitorsField].SetOf? {
      assert fields[VisitorsField] == JList(visitors);
      forall i | 0 <= i < |visitors| ensures Hashable(visitors[i]) {
        assert visitors[i] in (set x | x in visitors);
      }
    }
    var expected := stats[UpdatedField := Plain(JTime(now))];
    assert Decode(fields).Keys == expected.Keys;
    forall k | k in expected ensures Decode(fields)[k] == expected[k] {
      if k == VisitorsField && stats[k].SetOf? {
        assert fields[k] == JList(visitors);
      }
    }
  }

  /** A store that is not connected answers every call with the neutral
      result and does not change. */
  lemma NotConnectedNeutral(st: Store, rec: HistoryRecord, t: string, k: string,
                            data: Json, meter: map<string, Json>, limit: int, now: Moment)
    requires !IsConnected(st) && ValidDate(now)
    ensures SaveHistoricalRecord(st, rec, now) == (st, false)
    ensures SaveMeterData(st, meter, now) == (st, false)
    ensures SaveUsageStats(st, t, k, data, now) == (st, false)
    ensures GetHistoricalData(st, limit) == []
    ensures GetUsageStats(st, t) == map[]
    ensures GetVisitStats(st, now) == map[]
  {
  }
}

=== FILE: engine.dfy ===
/** The usage-rollup engine of app.py: `update_historical_data` (append to a
    capped history log, compute a clamped consumption delta, add it to the
    current bucket of five rollups) followed by `cleanup_expired_data`
    (drop every bucket whose key sorts before a per-resolution cutoff), as a
    pure state transformer. The clock reading `now` is a parameter. */
module UsageEngine {
  import opened Wrappers
  import opened Text
  import opened Calendar
  import opened BucketKeys
  import opened Records
  import opened Rollup

  /** `MAX_HISTORY_RECORDS` (app.py:32). */
  const MaxHistoryRecords: nat := 1000

  /** The six module-level globals of app.py:24-29. */
  datatype State = State(
    history: seq<HistoryRecord>,
    tenMinute: map<string, Bucket>,
    hourly: map<string, Bucket>,
    daily: map<string, DayBucket>,
    weekly: map<string, Bucket>,
    monthly: map<string, Bucket>)

  const Empty := State([], map[], map[], map[], map[], map[])

  function Min(a: int, b: int): int {
    if a <= b then a else b
  }

  /** The invariant every ingest keeps: a bounded log, and buckets that only
      ever grew from a fresh bucket by non-negative deltas. */
  predicate Wellformed(s: State) {
    && |s.history| <= MaxHistoryRecords
    && GoodBuckets(s.tenMinute)
    && GoodBuckets(s.hourly)
    && GoodDayBuckets(s.daily)
    && GoodBuckets(s.weekly)
    && GoodBuckets(s.monthly)
  }

  // ---------------------------------------------------------------------
  // History log (app.py:184-198)

  function MakeRecord(r: Reading, now: Moment): (rec: HistoryRecord)
    requires Valid(now)
    ensures rec.timestamp == Isoformat(now) && rec.remainingPower == PowerOf(r)
  {
    HistoryRecord(Isoformat(now), PowerOf(r), r.remainingAmount.GetOr(0.0), r.unitPrice.GetOr(0.0))
  }

  /** Append, then keep only the newest `MaxHistoryRecords` (FIFO). */
  function AppendCapped(log: seq<HistoryRecord>, rec: HistoryRecord): (r: seq<HistoryRecord>)
    ensures |r| == Min(|log| + 1, MaxHistoryRecords)
    ensures r[|r| - 1] == rec
    ensures forall i :: 0 <= i < |r| - 1 ==> r[i] == log[|log| - (|r| - 1) + i]
  {
    var all := log + [rec];
    if |all| > MaxHistoryRecords then all[|all| - MaxHistoryRecords..] else all
  }

  // ---------------------------------------------------------------------
  // Delta (app.py:200-205)

  /** The consumption attributed to this sample, read off the log AFTER the
      append: the drop from the second-to-last record, clamped at zero. */
  function Delta(log: seq<HistoryRecord>, power: real): (d: real)
    ensures d >= 0.0
    ensures |log| < 2 ==> d == 0.0
    ensures |log| >= 2 && power >= log[|log| - 2].remainingPower ==> d == 0.0
    ensures |log| >= 2 && power <= log[|log| - 2].remainingPower ==>
              d == log[|log| - 2].remainingPower - power
  {
    if |log| >= 2 then Max(0.0, log[|log| - 2].remainingPower - power) else 0.0
  }

  /** The record before the new one is the previous newest record, so the
      delta is the drop since the last reading; none on the first reading,
      and none (rather than a negative one) on a recharge. */
  lemma DeltaFromPrevious(log: seq<HistoryRecord>, rec: HistoryRecord)
    ensures var d := Delta(AppendCapped(log, rec), rec.remainingPower);
            && (|log| == 0 ==> d == 0.0)
            && (|log| > 0 && rec.remainingPower >= log[|log| - 1].remainingPower ==> d == 0.0)
            && (|log| > 0 && rec.remainingPower <= log[|log| - 1].remainingPower ==>
                  d == log[|log| - 1].remainingPower - rec.remainingPower)
  {
    var r := AppendCapped(log, rec);
    if |log| > 0 {
      assert |r| >= 2;
      assert r[|r| - 2] == log[|log| - 1];
    }
  }

  // ---------------------------------------------------------------------
  // Bucket updates (app.py:207-248)

  /** Add one sample to the current bucket of each of the five rollups. */
  function UpdateBuckets(s: State, delta: real, power: real, now: Moment): (r: State)
    requires Valid(now)
    ensures r.history == s.history
  {
    s.(tenMinute := AddSample(s.tenMinute, TenMinuteKey(now), delta, power),
       hourly := AddSample(s.hourly, HourKey(now), delta, power),
       daily := AddDaySample(s.daily, DayKey(now), delta, power),
       weekly := AddSample(s.weekly, WeekKey(now), delta, power),
       monthly := AddSample(s.monthly, MonthKey(now), delta, power))
  }

  /** Before any eviction, the update creates or changes only the bucket of
      the current period in each rollup. */
  lemma UpdateBucketsFrame(s: State, delta: real, power: real, now: Moment)
    requires Valid(now)
    ensures var r := UpdateBuckets(s, delta, power, now);
            && r.tenMinute.Keys == s.tenMinute.Keys + {TenMinuteKey(now)}
            && r.hourly.Keys == s.hourly.Keys + {HourKey(now)}
            && r.daily.Keys == s.daily.Keys + {DayKey(now)}
            && r.weekly.Keys == s.weekly.Keys + {WeekKey(now)}
            && r.monthly.Keys == s.monthly.Keys + {MonthKey(now)}
            && (forall k :: k in s.tenMinute && k != TenMinuteKey(now) ==> r.tenMinute[k] == s.tenMinute[k])
            && (forall k :: k in s.hourly && k != HourKey(now) ==> r.hourly[k] == s.hourly[k])
            && (forall k :: k in s.daily && k != DayKey(now) ==> r.daily[k] == s.daily[k])
            && (forall k :: k in s.weekly && k != WeekKey(now) ==> r.weekly[k] == s.weekly[k])
            && (forall k :: k in s.monthly && k != MonthKey(now) ==> r.monthly[k] == s.monthly[k])
  {
  }

  // ---------------------------------------------------------------------
  // Eviction (app.py:255-296)

  /** `now - 24h` as `%Y-%m-%d %H:%M`; the minute is not floored to ten. */
  function TenMinuteCutoff(now: Moment): (c: string)
    requires Valid(now) && 1 < Ordinal(now)
    ensures |c| == |TenMinuteKey(now)|
    ensures Less(c, TenMinuteKey(now))
  {
    TenMinuteCutoffBelowKey(now);
    MinuteText(SubDays(now, 1).value)
  }

  /** `now - 30 days` as `%Y-%m-%d-%H`. */
  function HourCutoff(now: Moment): (c: string)
    requires Valid(now) && 30 < Ordinal(now)
    ensures |c| == |HourKey(now)|
    ensures Less(c, HourKey(now))
  {
    HourCutoffBelowKey(now);
    HourText(SubDays(now, 30).value)
  }

  /** `now - 365 days` as `%Y-%m-%d`. */
  function DayCutoff(now: Moment): (c: string)
    requires Valid(now) && 365 < Ordinal(now)
    ensures |c| == |DayKey(now)|
    ensures Less(c, DayKey(now))
  {
    DayCutoffBelowKey(now);
    DateText(SubDays(now, 365).value)
  }

  /** `now - 52 weeks` as `%Y-W%U`, of that day itself (not its Monday). */
  function WeekCutoff(now: Moment): (c: string)
    requires Valid(now) && 364 < Ordinal(now)
    ensures |c| == |WeekKey(now)|
    ensures LessEq(c, WeekKey(now))
  {
    WeekCutoffBelowKey(now);
    WeekText(SubDays(now, 364).value)
  }

  /** `now - 730 days` as `%Y-%m`. */
  function MonthCutoff(now: Moment): (c: string)
    requires Valid(now) && 730 < Ordinal(now)
    ensures |c| == |MonthKey(now)|
    ensures LessEq(c, MonthKey(now))
  {
    MonthCutoffBelowKey(now);
    MonthText(SubDays(now, 730).value)
  }

  /** The cutoff each sweep uses, `None` for a sweep that does not run. */
  datatype Cutoffs = Cutoffs(
    tenMinute: Option<string>,
    hourly: Option<string>,
    daily: Option<string>,
    weekly: Option<string>,
    monthly: Option<string>)

  /** The cutoffs are computed in source order. A cutoff that would fall
      before 0001-01-01 raises OverflowError in the source, which the
      surrounding `try` swallows: that sweep and every later one are
      skipped. So the weekly sweep needs the 365-day daily cutoff to exist,
      although its own 364-day cutoff would. */
  function CutoffsAt(now: Moment): (c: Cutoffs)
    requires Valid(now)
    ensures c.tenMinute.Some? <==> 1 < Ordinal(now)
    ensures c.hourly.Some? <==> 30 < Ordinal(now)
    ensures c.daily.Some? <==> 365 < Ordinal(now)
    ensures c.weekly.Some? <==> 365 < Ordinal(now)
    ensures c.monthly.Some? <==> 730 < Ordinal(now)
    ensures c.tenMinute.Some? ==> c.tenMinute.value == TenMinuteCutoff(now)
    ensures c.hourly.Some? ==> c.hourly.value == HourCutoff(now)
    ensures c.daily.Some? ==> c.daily.value == DayCutoff(now)
    ensures c.weekly.Some? ==> c.weekly.value == WeekCutoff(now)
    ensures c.monthly.Some? ==> c.monthly.value == MonthCutoff(now)
  {
    if SubDays(now, 1).None? then Cutoffs(None, None, None, None, None)
    else
      var ten := Some(TenMinuteCutoff(now));
      if SubDays(now, 30).None? then Cutoffs(ten, None, None, None, None)
      else
        var hour := Some(HourCutoff(now));
        if SubDays(now, 365).None? then Cutoffs(ten, hour, None, None, None)
        else
          var day := Some(DayCutoff(now));
          if SubDays(now, 364).None? then Cutoffs(ten, hour, day, None, None)
          else
            var week := Some(WeekCutoff(now));
            if SubDays(now, 730).None? then Cutoffs(ten, hour, day, week, None)
            else Cutoffs(ten, hour, day, week, Some(MonthCutoff(now)))
  }

  /** One sweep, or none when its cutoff overflowed. */
  function Sweep<V>(m: map<string, V>, cutoff: Option<string>): (r: map<string, V>)
    ensures forall k :: k in r ==> k in m && r[k] == m[k]
    ensures cutoff.None? ==> r == m
    ensures cutoff.Some? ==> forall k :: k in r <==> k in m && LessEq(cutoff.value, k)
  {
    if cutoff.None? then m else EvictBefore(m, cutoff.value)
  }

  /** The five sweeps with the given cutoffs. */
  function Prune(s: State, c: Cutoffs): (r: State)
    ensures r.history == s.history
  {
    s.(tenMinute := Sweep(s.tenMinute, c.tenMinute),
       hourly := Sweep(s.hourly, c.hourly),
       daily := Sweep(s.daily, c.daily),
       weekly := Sweep(s.weekly, c.weekly),
       monthly := Sweep(s.monthly, c.monthly))
  }

  /** Pruning twice with the same cutoffs is pruning once. */
  lemma PruneIdempotent(s: State, c: Cutoffs)
    ensures Prune(Prune(s, c), c) == Prune(s, c)
  {
    var r := Prune(s, c);
    var rr := Prune(r, c);
    assert rr.tenMinute == r.tenMinute;
    assert rr.hourly == r.hourly;
    assert rr.daily == r.daily;
    assert rr.weekly == r.weekly;
    assert rr.monthly == r.monthly;
  }

  /** `cleanup_expired_data()` at clock reading `now`. */
  function CleanupExpired(s: State, now: Moment): (r: State)
    requires Valid(now)
    ensures r.history == s.history
  {
    Prune(s, CutoffsAt(now))
  }

  /** What the sweeps keep: no bucket is added or altered; where a cutoff
      exists exactly the keys at or after it remain; an overflowing cutoff
      leaves its rollup and every later one untouched. */
  lemma CleanupExpiredSpec(s: State, now: Moment)
    requires Valid(now)
    ensures forall k :: k in CleanupExpired(s, now).tenMinute ==>
              k in s.tenMinute && CleanupExpired(s, now).tenMinute[k] == s.tenMinute[k]
    ensures forall k :: k in CleanupExpired(s, now).hourly ==>
              k in s.hourly && CleanupExpired(s, now).hourly[k] == s.hourly[k]
    ensures forall k :: k in CleanupExpired(s, now).daily ==>
              k in s.daily && CleanupExpired(s, now).daily[k] == s.daily[k]
    ensures forall k :: k in CleanupExpired(s, now).weekly ==>
              k in s.weekly && CleanupExpired(s, now).weekly[k] == s.weekly[k]
    ensures forall k :: k in CleanupExpired(s, now).monthly ==>
              k in s.monthly && CleanupExpired(s, now).monthly[k] == s.monthly[k]
    ensures 1 < Ordinal(now) ==> forall k :: k in CleanupExpired(s, now).tenMinute <==>
              k in s.tenMinute && LessEq(TenMinuteCutoff(now), k)
    ensures 30 < Ordinal(now) ==> forall k :: k in CleanupExpired(s, now).hourly <==>
              k in s.hourly && LessEq(HourCutoff(now), k)
    ensures 365 < Ordinal(now) ==> forall k :: k in CleanupExpired(s, now).daily <==>
              k in s.daily && LessEq(DayCutoff(now), k)
    ensures 365 < Ordinal(now) ==> forall k :: k in CleanupExpired(s, now).weekly <==>
              k in s.weekly && LessEq(WeekCutoff(now), k)
    ensures 730 < Ordinal(now) ==> forall k :: k in CleanupExpired(s, now).monthly <==>
              k in s.monthly && LessEq(MonthCutoff(now), k)
    ensures Ordinal(now) <= 1 ==> CleanupExpired(s, now).tenMinute == s.tenMinute
    ensures Ordinal(now) <= 30 ==> CleanupExpired(s, now).hourly == s.hourly
    ensures Ordinal(now) <= 365 ==>
              CleanupExpired(s, now).daily == s.daily && CleanupExpired(s, now).weekly == s.weekly
    ensures Ordinal(now) <= 730 ==> CleanupExpired(s, now).monthly == s.monthly
  {
    var c := CutoffsAt(now);
    var r := Prune(s, c);
    assert CleanupExpired(s, now) == r;
  }

  /** Sweeping twice with the same clock reading is sweeping once. */
  lemma CleanupIdempotent(s: State, now: Moment)
    requires Valid(now)
    ensures CleanupExpired(CleanupExpired(s, now), now) == CleanupExpired(s, now)
  {
    PruneIdempotent(s, CutoffsAt(now));
  }

  // ---------------------------------------------------------------------
  // One ingest (app.py:179-253)

  /** `update_historical_data(data)` at clock reading `now`, without the
      final `save_historical_data()` (see `HistoryFile.Save`). */
  function Ingest(s: State, reading: Reading, now: Moment): (r: State)
    requires Valid(now)
    ensures |r.history| == Min(|s.history| + 1, MaxHistoryRecords)
    ensures r.history[|r.history| - 1] == MakeRecord(reading, now)
  {
    var rec := MakeRecord(reading, now);
    var log := AppendCapped(s.history, rec);
    var delta := Delta(log, rec.remainingPower);
    CleanupExpired(UpdateBuckets(s.(history := log), delta, rec.remainingPower, now), now)
  }

  /** The delta an ingest adds to the current buckets. */
  function IngestDelta(s: State, reading: Reading): (d: real)
    ensures d >= 0.0
    ensures |s.history| == 0 ==> d == 0.0
    ensures |s.history| > 0 && PowerOf(reading) >= s.history[|s.history| - 1].remainingPower ==> d == 0.0
    ensures |s.history| > 0 && PowerOf(reading) <= s.history[|s.history| - 1].remainingPower ==>
              d == s.history[|s.history| - 1].remainingPower - PowerOf(reading)
  {
    var rec := HistoryRecord([], PowerOf(reading), 0.0, 0.0);
    DeltaFromPrevious(s.history, rec);
    Delta(AppendCapped(s.history, rec), PowerOf(reading))
  }

  /** Ingest, unfolded into its two stages. */
  lemma IngestStages(s: State, reading: Reading, now: Moment)
    requires Valid(now)
    ensures var rec := MakeRecord(reading, now);
            var log := AppendCapped(s.history, rec);
            && Delta(log, rec.remainingPower) == IngestDelta(s, reading)
            && Ingest(s, reading, now)
                 == CleanupExpired(UpdateBuckets(s.(history := log), IngestDelta(s, reading), PowerOf(reading), now), now)
  {
    var rec := MakeRecord(reading, now);
    var rec' := HistoryRecord([], PowerOf(reading), 0.0, 0.0);
    DeltaFromPrevious(s.history, rec);
    DeltaFromPrevious(s.history, rec');
  }

  /** After an ingest the log holds at most 1000 records: the new record
      last, preceded by the newest records of the old log in their order. */
  lemma IngestHistory(s: State, reading: Reading, now: Moment)
    requires Valid(now)
    ensures var h, h' := s.history, Ingest(s, reading, now).history;
            && |h'| == Min(|h| + 1, MaxHistoryRecords)
            && h'[|h'| - 1] == MakeRecord(reading, now)
            && forall i :: 0 <= i < |h'| - 1 ==> h'[i] == h[|h| - (|h'| - 1) + i]
  {
    IngestStages(s, reading, now);
  }

  /** The cutoffs never reach the buckets the update just touched. */
  lemma CurrentKeysSurvive(now: Moment)
    requires Valid(now)
    ensures var c := CutoffsAt(now);
            && (c.tenMinute.Some? ==> LessEq(c.tenMinute.value, TenMinuteKey(now)))
            && (c.hourly.Some? ==> LessEq(c.hourly.value, HourKey(now)))
            && (c.daily.Some? ==> LessEq(c.daily.value, DayKey(now)))
            && (c.weekly.Some? ==> LessEq(c.weekly.value, WeekKey(now)))
            && (c.monthly.Some? ==> LessEq(c.monthly.value, MonthKey(now)))
  {
    if 1 < Ordinal(now) {
      TenMinuteCutoffBelowKey(now);
    }
    if 30 < Ordinal(now) {
      HourCutoffBelowKey(now);
    }
    if 365 < Ordinal(now) {
      DayCutoffBelowKey(now);
      WeekCutoffBelowKey(now);
    }
    if 730 < Ordinal(now) {
      MonthCutoffBelowKey(now);
    }
  }

  /** In each of the five rollups the bucket for `now` is present after the
      ingest, its usage raised by exactly the delta, its count by one, its
      `avg_power` set to the reading; the daily peak becomes the larger of
      the old peak and the reading. A missing bucket starts from zeros. */
  lemma IngestCurrentBuckets(s: State, reading: Reading, now: Moment)
    requires Valid(now)
    ensures var r, d, p := Ingest(s, reading, now), IngestDelta(s, reading), PowerOf(reading);
            && TenMinuteKey(now) in r.tenMinute
            && r.tenMinute[TenMinuteKey(now)]
                 == Bucket(BucketAt(s.tenMinute, TenMinuteKey(now)).usage + d,
                           BucketAt(s.tenMinute, TenMinuteKey(now)).count + 1, p)
            && HourKey(now) in r.hourly
            && r.hourly[HourKey(now)]
                 == Bucket(BucketAt(s.hourly, HourKey(now)).usage + d,
                           BucketAt(s.hourly, HourKey(now)).count + 1, p)
            && DayKey(now) in r.daily
            && r.daily[DayKey(now)]
                 == DayBucket(DayBucketAt(s.daily, DayKey(now)).usage + d,
                              DayBucketAt(s.daily, DayKey(now)).count + 1, p,
                              Max(DayBucketAt(s.daily, DayKey(now)).peakPower, p))
            && WeekKey(now) in r.weekly
            && r.weekly[WeekKey(now)]
                 == Bucket(BucketAt(s.weekly, WeekKey(now)).usage + d,
                           BucketAt(s.weekly, WeekKey(now)).count + 1, p)
            && MonthKey(now) in r.monthly
            && r.monthly[MonthKey(now)]
                 == Bucket(BucketAt(s.monthly, MonthKey(now)).usage + d,
                           BucketAt(s.monthly, MonthKey(now)).count + 1, p)
  {
    IngestStages(s, reading, now);
    CurrentKeysSurvive(now);
  }

  /** Every other bucket is left as it was or evicted; none is altered, and
      none appears. */
  lemma IngestOtherBuckets(s: State, reading: Reading, now: Moment)
    requires Valid(now)
    ensures var r := Ingest(s, reading, now);
            && (forall k :: k in r.tenMinute && k != TenMinuteKey(now) ==>
                  k in s.tenMinute && r.tenMinute[k] == s.tenMinute[k])
            && (forall k :: k in r.hourly && k != HourKey(now) ==>
                  k in s.hourly && r.hourly[k] == s.hourly[k])
            && (forall k :: k in r.daily && k != DayKey(now) ==>
                  k in s.daily && r.daily[k] == s.daily[k])
            && (forall k :: k in r.weekly && k != WeekKey(now) ==>
                  k in s.weekly && r.weekly[k] == s.weekly[k])
            && (forall k :: k in r.monthly && k != MonthKey(now) ==>
                  k in s.monthly && r.monthly[k] == s.monthly[k])
  {
    IngestStages(s, reading, now);
  }

  /** Fresh or grown buckets: non-negative usage, at least one sample. */
  predicate GoodBuckets(m: map<string, Bucket>) {
    forall k :: k in m ==> m[k].usage >= 0.0 && m[k].count >= 1
  }

  predicate GoodDayBuckets(m: map<string, DayBucket>) {
    forall k :: k in m ==> m[k].usage >= 0.0 && m[k].count >= 1 && m[k].peakPower >= 0.0
  }

  lemma AddSampleGood(m: map<string, Bucket>, key: string, delta: real, power: real)
    requires GoodBuckets(m) && delta >= 0.0
    ensures GoodBuckets(AddSample(m, key, delta, power))
  {
  }

  lemma AddDaySampleGood(m: map<string, DayBucket>, key: string, delta: real, power: real)
    requires GoodDayBuckets(m) && delta >= 0.0
    ensures GoodDayBuckets(AddDaySample(m, key, delta, power))
  {
  }

  /** Ingest keeps the invariant. */
  lemma IngestWellformed(s: State, reading: Reading, now: Moment)
    requires Valid(now) && Wellformed(s)
    ensures Wellformed(Ingest(s, reading, now))
  {
    IngestStages(s, reading, now);
    IngestHistory(s, reading, now);
    var d, p := IngestDelta(s, reading), PowerOf(reading);
    AddSampleGood(s.tenMinute, TenMinuteKey(now), d, p);
    AddSampleGood(s.hourly, HourKey(now), d, p);
    AddDaySampleGood(s.daily, DayKey(now), d, p);
    AddSampleGood(s.weekly, WeekKey(now), d, p);
    AddSampleGood(s.monthly, MonthKey(now), d, p);
  }

  // ---------------------------------------------------------------------
  // Successive cycles

  /** One pass of the fetch loop (app.py:46-54): a failed fetch changes
      nothing; a successful one is ingested. */
  datatype Cycle = Cycle(fetched: Option<Reading>, now: Moment)

  predicate ValidCycles(cs: seq<Cycle>) {
    forall i :: 0 <= i < |cs| ==> Valid(cs[i].now)
  }

  function Step(s: State, c: Cycle): (r: State)
    requires Valid(c.now)
    ensures c.fetched.None? ==> r == s
    ensures c.fetched.Some? ==>
              |r.history| >= 1 && r.history[|r.history| - 1] == MakeRecord(c.fetched.value, c.now)
  {
    if c.fetched.Some? then Ingest(s, c.fetched.value, c.now) else s
  }

  function RunCycles(s: State, cs: seq<Cycle>): (r: State)
    requires ValidCycles(cs)
    ensures Successes(cs) == 0 ==> r == s
    decreases |cs|
  {
    if |cs| == 0 then s else RunCycles(Step(s, cs[0]), cs[1..])
  }

  function Successes(cs: seq<Cycle>): (n: nat)
    ensures n <= |cs|
  {
    if |cs| == 0 then 0 else (if cs[0].fetched.Some? then 1 else 0) + Successes(cs[1..])
  }

  lemma StepHistory(s: State, c: Cycle)
    requires Valid(c.now)
    ensures |Step(s, c).history|
              == if c.fetched.Some? then Min(|s.history| + 1, MaxHistoryRecords) else |s.history|
  {
    if c.fetched.Some? {
      IngestHistory(s, c.fetched.value, c.now);
    }
  }

  /** Each successful cycle adds exactly one record, up to the cap: none is
      lost and none is counted twice. */
  lemma {:induction false} RunCyclesHistory(s: State, cs: seq<Cycle>)
    requires ValidCycles(cs) && |s.history| <= MaxHistoryRecords
    ensures |RunCycles(s, cs).history| == Min(|s.history| + Successes(cs), MaxHistoryRecords)
    decreases |cs|
  {
    if |cs| > 0 {
      var s', rest := Step(s, cs[0]), cs[1..];
      StepHistory(s, cs[0]);
      assert ValidCycles(rest);
      RunCyclesHistory(s', rest);
      assert RunCycles(s, cs) == RunCycles(s', rest);
      assert Successes(cs) == (if cs[0].fetched.Some? then 1 else 0) + Successes(rest);
    }
  }

  lemma StepWellformed(s: State, c: Cycle)
    requires Valid(c.now) && Wellformed(s)
    ensures Wellformed(Step(s, c))
  {
    if c.fetched.Some? {
      IngestWellformed(s, c.fetched.value, c.now);
    }
  }

  /** The invariant survives any sequence of cycles. */
  lemma {:induction false} RunCyclesWellformed(s: State, cs: seq<Cycle>)
    requires ValidCycles(cs) && Wellformed(s)
    ensures Wellformed(RunCycles(s, cs))
    decreases |cs|
  {
    if |cs| > 0 {
      var s', rest := Step(s, cs[0]), cs[1..];
      StepWellformed(s, cs[0]);
      assert ValidCycles(rest);
      RunCyclesWellformed(s', rest);
      assert RunCycles(s, cs) == RunCycles(s', rest);
    }
  }

  // ---------------------------------------------------------------------
  // Read projections

  /** `historical_data[-24:] if len(historical_data) > 24 else historical_data`
      (app.py:323). */
  function RecentHistory(s: State): (r: seq<HistoryRecord>)
    ensures |r| == Min(|s.history|, 24)
    ensures r == s.history[|s.history| - |r|..]
  {
    if |s.history| > 24 then s.history[|s.history| - 24..] else s.history
  }

  /** After an ingest the recent window ends with the new record. */
  lemma RecentHistoryAfterIngest(s: State, reading: Reading, now: Moment)
    requires Valid(now)
    ensures var w := RecentHistory(Ingest(s, reading, now));
            |w| >= 1 && w[|w| - 1] == MakeRecord(reading, now)
  {
    IngestHistory(s, reading, now);
  }

  /** The "recent 24h" figure of the usage summary (app.py:430): the usage
      summed over every ten-minute bucket. */
  ghost function Recent24hUsage(s: State): (r: real)
    ensures GoodBuckets(s.tenMinute) ==> r >= 0.0
  {
    if GoodBuckets(s.tenMinute) then
      TotalUsageNonNegative(s.tenMinute);
      TotalUsage(s.tenMinute)
    else TotalUsage(s.tenMinute)
  }

  /** The update step raises the recent total by exactly the delta, and
      the total of a wellformed state is never negative. */
  lemma Recent24hUsageUpdate(s: State, delta: real, power: real, now: Moment)
    requires Valid(now)
    ensures Recent24hUsage(UpdateBuckets(s, delta, power, now)) == Recent24hUsage(s) + delta
    ensures Wellformed(s) ==> Recent24hUsage(s) >= 0.0
  {
    TotalUsageAddSample(s.tenMinute, TenMinuteKey(now), delta, power);
    if Wellformed(s) {
      TotalUsageNonNegative(s.tenMinute);
    }
  }
}

=== FILE: history_file.dfy ===
/** The JSON history file `data_history.json` (app.py:140-177): the
    six globals written as one document and read back. The file system and
    the JSON codec are not modelled; what the reader finds on disk is a
    parameter. */
module HistoryFile {
  import opened Wrappers
  import opened Records
  import opened Rollup
  import opened UsageEngine

  /** The decoded document. A key may be absent from a file written by an
      older version, hence each field is optional. */
  datatype Document = Document(
    historicalData: Option<seq<HistoryRecord>>,
    tenMinuteUsage: Option<map<string, Bucket>>,
    hourlyUsageData: Option<map<string, Bucket>>,
    dailyUsageData: Option<map<string, DayBucket>>,
    weeklyUsageData: Option<map<string, Bucket>>,
    monthlyUsageData: Option<map<string, Bucket>>)

  /** What opening and decoding the file yields. */
  datatype FileRead =
    | Missing             // `os.path.exists` is false
    | Unreadable          // `open` or `json.load` raised
    | Parsed(doc: Document)

  /** `save_historical_data()`: every key is written. */
  function Save(s: State): (d: Document)
    ensures d.historicalData.Some? && d.tenMinuteUsage.Some? && d.hourlyUsageData.Some?
    ensures d.dailyUsageData.Some? && d.weeklyUsageData.Some? && d.monthlyUsageData.Some?
  {
    Document(Some(s.history), Some(s.tenMinute), Some(s.hourly), Some(s.daily),
             Some(s.weekly), Some(s.monthly))
  }

  /** `load_historical_data()` run on state `current`: a missing file keeps
      the state, an unreadable one resets all six globals, and a decoded one
      replaces each global by its key, or by an empty value if the key is
      absent (`history.get(key, [])` / `history.get(key, {})`). */
  function Load(current: State, f: FileRead): (r: State)
    ensures f.Missing? ==> r == current
    ensures f.Unreadable? ==> r == Empty
    ensures f.Parsed? && f.doc.historicalData.Some? ==> r.history == f.doc.historicalData.value
    ensures f.Parsed? && f.doc.historicalData.None? ==> r.history == []
    ensures f.Parsed? && f.doc.tenMinuteUsage.Some? ==> r.tenMinute == f.doc.tenMinuteUsage.value
    ensures f.Parsed? && f.doc.tenMinuteUsage.None? ==> r.tenMinute == map[]
    ensures f.Parsed? && f.doc.hourlyUsageData.Some? ==> r.hourly == f.doc.hourlyUsageData.value
    ensures f.Parsed? && f.doc.hourlyUsageData.None? ==> r.hourly == map[]
    ensures f.Parsed? && f.doc.dailyUsageData.Some? ==> r.daily == f.doc.dailyUsageData.value
    ensures f.Parsed? && f.doc.dailyUsageData.None? ==> r.daily == map[]
    ensures f.Parsed? && f.doc.weeklyUsageData.Some? ==> r.weekly == f.doc.weeklyUsageData.value
    ensures f.Parsed? && f.doc.weeklyUsageData.None? ==> r.weekly == map[]
    ensures f.Parsed? && f.doc.monthlyUsageData.Some? ==> r.monthly == f.doc.monthlyUsageData.value
    ensures f.Parsed? && f.doc.monthlyUsageData.None? ==> r.monthly == map[]
  {
    match f
    case Missing => current
    case Unreadable => Empty
    case Parsed(d) =>
      State(d.historicalData.GetOr([]), d.tenMinuteUsage.GetOr(map[]),
            d.hourlyUsageData.GetOr(map[]), d.dailyUsageData.GetOr(map[]),
            d.weeklyUsageData.GetOr(map[]), d.monthlyUsageData.GetOr(map[]))
  }

  /** Loading what was saved restores the state exactly, whatever state the
      loader starts from. */
  lemma LoadSave(current: State, s: State)
    ensures Load(current, Parsed(Save(s))) == s
  {
  }

  /** A document with every key absent loads as the empty state, the same
      as an unreadable file. */
  lemma LoadEmptyDocument(current: State)
    ensures Load(current, Parsed(Document(None, None, None, None, None, None)))
              == Load(current, Unreadable)
  {
  }

  /** Saving a loaded state and loading it again changes nothing. */
  lemma LoadStable(current: State, f: FileRead)
    ensures Load(current, Parsed(Save(Load(current, f)))) == Load(current, f)
  {
    LoadSave(current, Load(current, f));
  }

  /** Only a missing file lets the state before the load show through: an
      unreadable or decoded file determines the result on its own. */
  lemma LoadIgnoresCurrent(current: State, f: FileRead)
    requires !f.Missing?
    ensures Load(current, f) == Load(Empty, f)
  {
  }

  /** The empty state is wellformed, so an unreadable file restarts the
      engine from a state every later ingest keeps wellformed. */
  lemma UnreadableWellformed(current: State)
    ensures Wellformed(Load(current, Unreadable))
  {
  }
}

=== FILE: keys.dfy ===
/** The bucket keys of the five rollups and the history timestamp, as
    `strftime`/`isoformat` render them (app.py:184, 208-209, 217, 225, 234-235,
    243), and the fact the eviction sweep depends on: because every field is
    zero-padded and most significant first, comparing keys as strings
    compares the instants they name. */
module BucketKeys {
  import opened Text
  import opened Calendar

  /** `%Y-%m`: the monthly key. */
  function MonthText(t: Moment): (s: string)
    requires ValidDate(t)
    ensures |s| == 7
  {
    Pad(t.year, 4) + "-" + Pad(t.month, 2)
  }

  /** `%Y-%m-%d`: the daily key. */
  function DateText(t: Moment): (s: string)
    requires ValidDate(t)
    ensures |s| == 10 && s[..7] == MonthText(t)
  {
    MonthText(t) + "-" + Pad(t.day, 2)
  }

  /** `%Y-%m-%d-%H`: the hourly key. */
  function HourText(t: Moment): (s: string)
    requires Valid(t)
    ensures |s| == 13 && s[..10] == DateText(t)
  {
    DateText(t) + "-" + Pad(t.hour, 2)
  }

  /** `%Y-%m-%d %H:%M`: the ten-minute key format, and the format of its cutoff. */
  function MinuteText(t: Moment): (s: string)
    requires Valid(t)
    ensures |s| == 16 && s[..10] == DateText(t)
  {
    DateText(t) + " " + Pad(t.hour, 2) + ":" + Pad(t.minute, 2)
  }

  /** `%Y-W%U`: the weekly key format. */
  function WeekText(t: Moment): (s: string)
    requires ValidDate(t)
    ensures |s| == 8
  {
    Pad(t.year, 4) + "-W" + Pad(SundayWeek(t), 2)
  }

  /** `now.replace(minute=(now.minute // 10) * 10, second=0, microsecond=0)`. */
  function FloorToTenMinutes(t: Moment): (r: Moment)
    requires Valid(t)
    ensures Valid(r) && r.minute % 10 == 0 && r.minute <= t.minute < r.minute + 10
    ensures r.year == t.year && r.month == t.month && r.day == t.day && r.hour == t.hour
  {
    t.(minute := t.minute / 10 * 10, second := 0, microsecond := 0)
  }

  /** The ten-minute key names the day and never sorts after the exact
      minute it was taken from. */
  function TenMinuteKey(t: Moment): (k: string)
    requires Valid(t)
    ensures |k| == 16 && k[..10] == DayKey(t)
    ensures LessEq(k, MinuteText(t))
  {
    var f := FloorToTenMinutes(t);
    assert DateText(f) == DateText(t);
    MinuteTextOrder(f, t);
    MinuteText(f)
  }

  function HourKey(t: Moment): (k: string)
    requires Valid(t)
    ensures |k| == 13 && k[..10] == DayKey(t)
  {
    HourText(t)
  }

  function DayKey(t: Moment): (k: string)
    requires Valid(t)
    ensures |k| == 10 && k[..7] == MonthKey(t)
  {
    DateText(t)
  }

  /** The weekly key is the `%Y-W%U` of the Monday of the current week, which
      never sorts after the `%Y-W%U` of the day itself. */
  function WeekKey(t: Moment): (k: string)
    requires Valid(t)
    ensures |k| == 8
    ensures LessEq(k, WeekText(t))
  {
    var w := Weekday(t);
    MondayArith(Ordinal(t));
    assert WeekStart(t) == SubDays(t, w).value;
    WeekTextSubDays(t, w);
    WeekText(WeekStart(t))
  }

  function MonthKey(t: Moment): (k: string)
    requires Valid(t)
    ensures |k| == 7
  {
    MonthText(t)
  }

  /** `datetime.isoformat()` of a naive datetime: the fraction is omitted
      when the microsecond is zero. */
  function Isoformat(t: Moment): (s: string)
    requires Valid(t)
    ensures |s| == (if t.microsecond == 0 then 19 else 26)
    ensures s[..10] == DateText(t) && s[..7] == MonthText(t)
  {
    DateText(t) + "T" + Pad(t.hour, 2) + ":" + Pad(t.minute, 2) + ":" + Pad(t.second, 2)
    + (if t.microsecond == 0 then "" else "." + Pad(t.microsecond, 6))
  }

  // ---------------------------------------------------------------------
  // String order is calendar order

  /** Two equal-width fields joined by the same separator compare as the
      pair (first field, second field). */
  lemma JoinOrder(x: string, x': string, sep: string, y: string, y': string)
    requires |x| == |x'|
    ensures Less(x + sep + y, x' + sep + y') <==> Less(x, x') || (x == x' && Less(y, y'))
    ensures x + sep + y == x' + sep + y' <==> x == x' && y == y'
  {
    LessAppend(x + sep, x' + sep, y, y');
    AppendEq(x + sep, x' + sep, y, y');
    LessAppend(x, x', sep, sep);
    AppendEq(x, x', sep, sep);
    LessIrreflexive(sep);
  }

  lemma MonthTextOrder(a: Moment, b: Moment)
    requires ValidDate(a) && ValidDate(b)
    ensures Less(MonthText(a), MonthText(b)) <==>
              a.year < b.year || (a.year == b.year && a.month < b.month)
    ensures MonthText(a) == MonthText(b) <==> a.year == b.year && a.month == b.month
  {
    JoinOrder(Pad(a.year, 4), Pad(b.year, 4), "-", Pad(a.month, 2), Pad(b.month, 2));
    PadOrder(a.year, b.year, 4);
    PadOrder(a.month, b.month, 2);
  }

  /** Daily keys sort exactly as their dates. */
  lemma DateTextOrder(a: Moment, b: Moment)
    requires ValidDate(a) && ValidDate(b)
    ensures Less(DateText(a), DateText(b)) <==> DateBefore(a, b)
    ensures DateText(a) == DateText(b) <==>
              a.year == b.year && a.month == b.month && a.day == b.day
  {
    JoinOrder(MonthText(a), MonthText(b), "-", Pad(a.day, 2), Pad(b.day, 2));
    MonthTextOrder(a, b);
    PadOrder(a.day, b.day, 2);
  }

  /** Hourly keys sort as (date, hour). */
  lemma HourTextOrder(a: Moment, b: Moment)
    requires Valid(a) && Valid(b)
    ensures Less(HourText(a), HourText(b)) <==>
              DateBefore(a, b) || (DateText(a) == DateText(b) && a.hour < b.hour)
    ensures HourText(a) == HourText(b) <==> DateText(a) == DateText(b) && a.hour == b.hour
  {
    JoinOrder(DateText(a), DateText(b), "-", Pad(a.hour, 2), Pad(b.hour, 2));
    DateTextOrder(a, b);
    PadOrder(a.hour, b.hour, 2);
  }

  /** Ten-minute keys sort as (date, hour, minute). */
  lemma MinuteTextOrder(a: Moment, b: Moment)
    requires Valid(a) && Valid(b)
    ensures Less(MinuteText(a), MinuteText(b)) <==>
              || DateBefore(a, b)
              || (DateText(a) == DateText(b) && a.hour < b.hour)
              || (DateText(a) == DateText(b) && a.hour == b.hour && a.minute < b.minute)
    ensures MinuteText(a) == MinuteText(b) <==>
              DateText(a) == DateText(b) && a.hour == b.hour && a.minute == b.minute
  {
    var ha, hb := DateText(a) + " " + Pad(a.hour, 2), DateText(b) + " " + Pad(b.hour, 2);
    JoinOrder(ha, hb, ":", Pad(a.minute, 2), Pad(b.minute, 2));
    JoinOrder(DateText(a), DateText(b), " ", Pad(a.hour, 2), Pad(b.hour, 2));
    DateTextOrder(a, b);
    PadOrder(a.hour, b.hour, 2);
    PadOrder(a.minute, b.minute, 2);
  }

  /** Weekly keys sort as (year, `%U` week number). */
  lemma WeekTextOrder(a: Moment, b: Moment)
    requires ValidDate(a) && ValidDate(b)
    ensures Less(WeekText(a), WeekText(b)) <==>
              a.year < b.year || (a.year == b.year && SundayWeek(a) < SundayWeek(b))
    ensures WeekText(a) == WeekText(b) <==>
              a.year == b.year && SundayWeek(a) == SundayWeek(b)
  {
    JoinOrder(Pad(a.year, 4), Pad(b.year, 4), "-W", Pad(SundayWeek(a), 2), Pad(SundayWeek(b), 2));
    PadOrder(a.year, b.year, 4);
    PadOrder(SundayWeek(a), SundayWeek(b), 2);
  }

  // ---------------------------------------------------------------------
  // The week number never decreases as time goes forward

  lemma WeekArith(yd: int, o: int)
    requires yd >= 1 && o >= 2
    ensures (yd - 1 + 7 - (o - 1) % 7) / 7 <= (yd + 7 - o % 7) / 7
  {
    if o % 7 != 0 {
      assert (o - 1) % 7 == o % 7 - 1;
    }
  }

  lemma {:induction false} WeekTextPrevDay(t: Moment)
    requires ValidDate(t) && Ordinal(t) > 1
    ensures LessEq(WeekText(PrevDay(t)), WeekText(t))
  {
    var p := PrevDay(t);
    WeekTextOrder(p, t);
    if p.year == t.year {
      WeekArith(YearDay(t), Ordinal(t));
    }
  }

  /** Going back any number of days never reaches a later weekly key. */
  lemma {:induction false} WeekTextSubDays(t: Moment, n: nat)
    requires ValidDate(t) && n < Ordinal(t)
    ensures LessEq(WeekText(SubDays(t, n).value), WeekText(t))
    decreases n
  {
    if n > 0 {
      WeekTextSubDays(PrevDay(t), n - 1);
      WeekTextPrevDay(t);
      LessEqTransitive(WeekText(SubDays(t, n).value), WeekText(PrevDay(t)), WeekText(t));
    }
  }

  // ---------------------------------------------------------------------
  // Each cutoff key sorts no later than the key of the bucket just updated,
  // so the sweep that follows an update never evicts that bucket.

  lemma TenMinuteCutoffBelowKey(now: Moment)
    requires Valid(now) && 1 < Ordinal(now)
    ensures Less(MinuteText(SubDays(now, 1).value), TenMinuteKey(now))
  {
    SubDaysBefore(now, 1);
    MinuteTextOrder(SubDays(now, 1).value, FloorToTenMinutes(now));
  }

  lemma HourCutoffBelowKey(now: Moment)
    requires Valid(now) && 30 < Ordinal(now)
    ensures Less(HourText(SubDays(now, 30).value), HourKey(now))
  {
    SubDaysBefore(now, 30);
    HourTextOrder(SubDays(now, 30).value, now);
  }

  lemma DayCutoffBelowKey(now: Moment)
    requires Valid(now) && 365 < Ordinal(now)
    ensures Less(DateText(SubDays(now, 365).value), DayKey(now))
  {
    SubDaysBefore(now, 365);
    DateTextOrder(SubDays(now, 365).value, now);
  }

  /** The weekly cutoff is taken from `now - 52 weeks` itself, while the key
      is taken from this week's Monday; the Monday is at most six days back,
      so the cutoff's week is never the later one. */
  lemma WeekCutoffBelowKey(now: Moment)
    requires Valid(now) && 364 < Ordinal(now)
    ensures LessEq(WeekText(SubDays(now, 364).value), WeekKey(now))
  {
    var w := Weekday(now);
    var monday := WeekStart(now);
    assert monday == SubDays(now, w).value;
    assert Ordinal(monday) == Ordinal(now) - w;
    SubDaysSplit(now, w, 364 - w);
    var cutoff := SubDays(monday, 364 - w).value;
    assert SubDays(now, 364).value == cutoff;
    WeekTextSubDays(monday, 364 - w);
    assert LessEq(WeekText(cutoff), WeekText(monday));
  }

  lemma MonthCutoffBelowKey(now: Moment)
    requires Valid(now) && 730 < Ordinal(now)
    ensures LessEq(MonthText(SubDays(now, 730).value), MonthKey(now))
  {
    SubDaysBefore(now, 730);
    MonthTextOrder(SubDays(now, 730).value, now);
  }
}

=== FILE: records.dfy ===
/** The values that flow into the engine and into its history log. */
module Records {
  import opened Wrappers

  /** What the scraper hands the engine. Only the three numbers the engine
      copies are modelled; each may be missing from the scraped dictionary,
      and the engine then reads 0 (`data.get(field, 0)`). */
  datatype Reading = Reading(
    remainingPower: Option<real>,
    remainingAmount: Option<real>,
    unitPrice: Option<real>)

  /** One element of `historical_data` (app.py:187-192). */
  datatype HistoryRecord = HistoryRecord(
    timestamp: string,
    remainingPower: real,
    remainingAmount: real,
    unitPrice: real)

  /** `data.get('remaining_power', 0)`. */
  function PowerOf(r: Reading): real {
    r.remainingPower.GetOr(0.0)
  }
}

=== FILE: rollup.dfy ===
/** One rollup map: bucket key to accumulated statistics. The additive
    update of a single bucket (app.py:210-248), the sweep that drops every
    bucket whose key sorts before a cutoff (app.py:263-265 and its four
    siblings), and the total over all buckets that the usage summary
    reports (app.py:430). */
module Rollup {
  import opened Text

  /** A ten-minute, hourly, weekly or monthly bucket. `avgPower` is the
      source's `avg_power`, which holds the LATEST reading, not an average. */
  datatype Bucket = Bucket(usage: real, count: int, avgPower: real)

  /** A daily bucket, which also keeps `peak_power`. */
  datatype DayBucket = DayBucket(usage: real, count: int, avgPower: real, peakPower: real)

  /** The bucket created on the first sample of a period. */
  const FreshBucket := Bucket(0.0, 0, 0.0)
  const FreshDayBucket := DayBucket(0.0, 0, 0.0, 0.0)

  function Max(a: real, b: real): (r: real)
    ensures r >= a && r >= b && (r == a || r == b)
  {
    if a >= b then a else b
  }

  function BucketAt(m: map<string, Bucket>, key: string): Bucket {
    if key in m then m[key] else FreshBucket
  }

  function DayBucketAt(m: map<string, DayBucket>, key: string): DayBucket {
    if key in m then m[key] else FreshDayBucket
  }

  /** Fold one sample into the bucket at `key`, creating it first if absent. */
  function AddSample(m: map<string, Bucket>, key: string, delta: real, power: real)
    : (r: map<string, Bucket>)
    ensures r.Keys == m.Keys + {key}
    ensures r[key].usage == BucketAt(m, key).usage + delta
    ensures r[key].count == BucketAt(m, key).count + 1
    ensures r[key].avgPower == power
    ensures forall k :: k in m && k != key ==> r[k] == m[k]
  {
    var b := BucketAt(m, key);
    m[key := Bucket(b.usage + delta, b.count + 1, power)]
  }

  /** The daily variant: also raises `peak_power` to the reading if higher. */
  function AddDaySample(m: map<string, DayBucket>, key: string, delta: real, power: real)
    : (r: map<string, DayBucket>)
    ensures r.Keys == m.Keys + {key}
    ensures r[key].usage == DayBucketAt(m, key).usage + delta
    ensures r[key].count == DayBucketAt(m, key).count + 1
    ensures r[key].avgPower == power
    ensures r[key].peakPower >= DayBucketAt(m, key).peakPower && r[key].peakPower >= power
    ensures r[key].peakPower == DayBucketAt(m, key).peakPower || r[key].peakPower == power
    ensures forall k :: k in m && k != key ==> r[k] == m[k]
  {
    var b := DayBucketAt(m, key);
    m[key := DayBucket(b.usage + delta, b.count + 1, power, Max(b.peakPower, power))]
  }

  /** `for key in [k for k in m if k < cutoff]: del m[key]`. */
  function EvictBefore<V>(m: map<string, V>, cutoff: string): (r: map<string, V>)
    ensures forall k :: k in r <==> k in m && LessEq(cutoff, k)
    ensures forall k :: k in r ==> r[k] == m[k]
  {
    forall k ensures !Less(k, cutoff) <==> LessEq(cutoff, k) {
      LessEqIffNotLess(cutoff, k);
    }
    map k | k in m && !Less(k, cutoff) :: m[k]
  }

  /** A second sweep with the same cutoff removes nothing more. */
  lemma EvictIdempotent<V>(m: map<string, V>, cutoff: string)
    ensures EvictBefore(EvictBefore(m, cutoff), cutoff) == EvictBefore(m, cutoff)
  {
  }

  /** A sweep with a later cutoff subsumes one with an earlier cutoff. */
  lemma EvictCompose<V>(m: map<string, V>, c1: string, c2: string)
    requires LessEq(c1, c2)
    ensures EvictBefore(EvictBefore(m, c1), c2) == EvictBefore(m, c2)
  {
    forall k | k in m && LessEq(c2, k) ensures LessEq(c1, k) {
      LessEqTransitive(c1, c2, k);
    }
  }

  /** Some bucket key; which one is immaterial to the total. */
  ghost function SomeKey(m: map<string, Bucket>): (k: string)
    requires |m| > 0
    ensures k in m
  {
    var k :| k in m; k
  }

  /** `sum(data.get('usage', 0) for data in m.values())`. */
  ghost function TotalUsage(m: map<string, Bucket>): real
    decreases |m|
  {
    if |m| == 0 then 0.0
    else
      var k := SomeKey(m);
      SizeRemove(m, k);
      m[k].usage + TotalUsage(m - {k})
  }

  lemma SizeRemove(m: map<string, Bucket>, key: string)
    requires key in m
    ensures |m - {key}| == |m| - 1
  {
    assert (m - {key}).Keys == m.Keys - {key};
  }

  /** The total does not depend on the order the buckets are visited in. */
  lemma {:induction false} TotalUsageRemove(m: map<string, Bucket>, key: string)
    requires key in m
    ensures TotalUsage(m) == m[key].usage + TotalUsage(m - {key})
    decreases |m|
  {
    SizeRemove(m, key);
    var k := SomeKey(m);
    if k != key {
      var mk, mkey := m - {k}, m - {key};
      SizeRemove(m, k);
      assert key in mk && k in mkey;
      TotalUsageRemove(mk, key);
      TotalUsageRemove(mkey, k);
      assert mk - {key} == mkey - {k};
      assert mk[key] == m[key] && mkey[k] == m[k];
    }
  }

  /** Overwriting one bucket changes the total by the change in that bucket. */
  lemma TotalUsageUpdate(m: map<string, Bucket>, key: string, b: Bucket)
    ensures TotalUsage(m[key := b]) == TotalUsage(m) - BucketAt(m, key).usage + b.usage
  {
    var r := m[key := b];
    TotalUsageRemove(r, key);
    assert r - {key} == m - {key};
    if key in m {
      TotalUsageRemove(m, key);
    } else {
      assert m - {key} == m;
    }
  }

  /** Folding a sample into one bucket raises the total by exactly the delta. */
  lemma TotalUsageAddSample(m: map<string, Bucket>, key: string, delta: real, power: real)
    ensures TotalUsage(AddSample(m, key, delta, power)) == TotalUsage(m) + delta
  {
    var b := BucketAt(m, key);
    TotalUsageUpdate(m, key, Bucket(b.usage + delta, b.count + 1, power));
  }

  /** The total of non-negative buckets is non-negative. */
  lemma {:induction false} TotalUsageNonNegative(m: map<string, Bucket>)
    requires forall k :: k in m ==> m[k].usage >= 0.0
    ensures TotalUsage(m) >= 0.0
    decreases |m|
  {
    if |m| > 0 {
      var k := SomeKey(m);
      SizeRemove(m, k);
      TotalUsageNonNegative(m - {k});
    }
  }
}

=== FILE: text.dfy ===
/** Strings the way the rollup engine uses them: Python's ordering on `str`,
    fixed-width zero-padded decimal fields, and the prefix and substring
    tests of the data-cleaning script. */
module Text {

  /** Python's `a < b` on strings: lexicographic by code point, a proper
      prefix sorting first. (Dafny's own `<` on sequences means "proper
      prefix", which is not what the source compares with.) */
  predicate Less(a: string, b: string)
    ensures Less(a, b) ==> a != b
    decreases |a|
  {
    |b| > 0 && (|a| == 0 || a[0] < b[0] || (a[0] == b[0] && Less(a[1..], b[1..])))
  }

  /** Python's `a <= b` on strings. */
  predicate LessEq(a: string, b: string) {
    a == b || Less(a, b)
  }

  lemma {:induction false} LessIrreflexive(a: string)
    ensures !Less(a, a)
  {
    if |a| > 0 {
      LessIrreflexive(a[1..]);
    }
  }

  lemma {:induction false} LessAsymmetric(a: string, b: string)
    ensures Less(a, b) ==> !Less(b, a)
  {
    if |a| > 0 && |b| > 0 && a[0] == b[0] {
      LessAsymmetric(a[1..], b[1..]);
    }
  }

  lemma {:induction false} LessTransitive(a: string, b: string, c: string)
    requires Less(a, b) && Less(b, c)
    ensures Less(a, c)
  {
    if |a| > 0 && a[0] == b[0] && b[0] == c[0] {
      LessTransitive(a[1..], b[1..], c[1..]);
    }
  }

  /** Any two strings are equal or ordered one way round. */
  lemma {:induction false} LessTotal(a: string, b: string)
    ensures a == b || Less(a, b) || Less(b, a)
  {
    if |a| > 0 && |b| > 0 && a[0] == b[0] {
      LessTotal(a[1..], b[1..]);
      if a[1..] == b[1..] {
        assert a == [a[0]] + a[1..] && b == [b[0]] + b[1..];
      }
    }
  }

  lemma LessEqTransitive(a: string, b: string, c: string)
    requires LessEq(a, b) && LessEq(b, c)
    ensures LessEq(a, c)
  {
    if a != b && b != c {
      LessTransitive(a, b, c);
    }
  }

  /** `<=` is the negation of `>`: the form the eviction sweep relies on. */
  lemma LessEqIffNotLess(a: string, b: string)
    ensures LessEq(a, b) <==> !Less(b, a)
  {
    LessTotal(a, b);
    LessAsymmetric(a, b);
    LessIrreflexive(a);
  }

  /** Equal-length heads decide the comparison of two concatenations; the
      tails only break a tie. */
  lemma {:induction false} LessAppend(a: string, a': string, b: string, b': string)
    requires |a| == |a'|
    ensures Less(a + b, a' + b') <==> Less(a, a') || (a == a' && Less(b, b'))
  {
    if |a| == 0 {
      assert a + b == b && a' + b' == b';
    } else {
      assert (a + b)[0] == a[0] && (a' + b')[0] == a'[0];
      assert (a + b)[1..] == a[1..] + b && (a' + b')[1..] == a'[1..] + b';
      LessAppend(a[1..], a'[1..], b, b');
      assert a == [a[0]] + a[1..] && a' == [a'[0]] + a'[1..];
    }
  }

  lemma AppendEq(a: string, a': string, b: string, b': string)
    requires |a| == |a'|
    ensures a + b == a' + b' <==> a == a' && b == b'
  {
    if a + b == a' + b' {
      assert a == (a + b)[..|a|] && a' == (a' + b')[..|a'|];
      assert b == (a + b)[|a|..] && b' == (a' + b')[|a'|..];
    }
  }

  function Pow10(w: nat): nat {
    if w == 0 then 1 else 10 * Pow10(w - 1)
  }

  predicate IsDigit(c: char) {
    '0' <= c <= '9'
  }

  function Digit(d: int): (c: char)
    requires 0 <= d < 10
    ensures IsDigit(c)
  {
    (48 + d) as char
  }

  /** `n` written in exactly `w` decimal digits, most significant first, with
      leading zeros: the `%02d`/`%04d` fields of `strftime` and `isoformat`. */
  function Pad(n: nat, w: nat): (s: string)
    requires n < Pow10(w)
    ensures |s| == w
    ensures forall i :: 0 <= i < |s| ==> IsDigit(s[i])
  {
    if w == 0 then [] else Pad(n / 10, w - 1) + [Digit(n % 10)]
  }

  /** Fixed-width zero padding turns string order into numeric order, and
      distinct numbers into distinct strings. */
  lemma {:induction false} PadOrder(a: nat, b: nat, w: nat)
    requires a < Pow10(w) && b < Pow10(w)
    ensures Less(Pad(a, w), Pad(b, w)) <==> a < b
    ensures Pad(a, w) == Pad(b, w) <==> a == b
  {
    if w == 0 {
    } else {
      PadOrder(a / 10, b / 10, w - 1);
      var da, db := [Digit(a % 10)], [Digit(b % 10)];
      LessAppend(Pad(a / 10, w - 1), Pad(b / 10, w - 1), da, db);
      AppendEq(Pad(a / 10, w - 1), Pad(b / 10, w - 1), da, db);
      assert Less(da, db) <==> a % 10 < b % 10 by {
        assert da[1..] == [] && db[1..] == [];
      }
      assert da == db <==> a % 10 == b % 10 by {
        if da == db {
          assert da[0] == db[0];
        }
      }
    }
  }

  /** Python's `s.startswith(p)`. */
  predicate StartsWith(s: string, p: string)
    ensures StartsWith(s, p) <==> OccursAt(s, p, 0)
  {
    |p| <= |s| && s[..|p|] == p
  }

  /** Python's `p in s` for strings: `p` occurs somewhere in `s`. */
  predicate Contains(s: string, p: string)
    ensures Contains(s, p) ==> |p| <= |s|
    decreases |s|
  {
    StartsWith(s, p) || (|s| > 0 && Contains(s[1..], p))
  }

  /** `p` occurs in `s` starting at index `i`. */
  predicate OccursAt(s: string, p: string, i: int) {
    0 <= i && i + |p| <= |s| && s[i..i + |p|] == p
  }

  /** An occurrence at any index is found by the recursive test. */
  lemma {:induction false} OccursContains(s: string, p: string, i: int)
    requires OccursAt(s, p, i)
    ensures Contains(s, p)
    decreases i
  {
    if i == 0 {
      assert s[..|p|] == s[0..|p|];
    } else {
      assert s[1..][i - 1..i - 1 + |p|] == s[i..i + |p|];
      OccursContains(s[1..], p, i - 1);
    }
  }

  /** The recursive test only succeeds at a real occurrence. */
  lemma {:induction false} ContainsOccurs(s: string, p: string)
    requires Contains(s, p)
    ensures exists i :: OccursAt(s, p, i)
    decreases |s|
  {
    if StartsWith(s, p) {
      assert OccursAt(s, p, 0);
    } else {
      ContainsOccurs(s[1..], p);
      var i :| OccursAt(s[1..], p, i);
      assert s[1..][i..i + |p|] == s[i + 1..i + 1 + |p|];
      assert OccursAt(s, p, i + 1);
    }
  }

  /** With no occurrence at any index the recursive test fails. */
  lemma {:induction false} AbsentNotContains(s: string, p: string)
    requires forall i :: !OccursAt(s, p, i)
    ensures !Contains(s, p)
    decreases |s|
  {
    assert !OccursAt(s, p, 0);
    if |s| > 0 {
      forall i ensures !OccursAt(s[1..], p, i) {
        if 0 <= i && i + |p| <= |s| - 1 {
          assert s[1..][i..i + |p|] == s[i + 1..i + 1 + |p|];
          assert !OccursAt(s, p, i + 1);
        }
      }
      AbsentNotContains(s[1..], p);
    }
  }
}

=== FILE: wrappers.dfy ===
/** The optional value used throughout the model: a dictionary key that may
    be absent, a date computation that may overflow, a field a reading may
    lack. */
module Wrappers {

  datatype Option<+T> = None | Some(value: T) {

    /** Python's `d.get(key, default)` once the lookup has been made. */
    function GetOr(default: T): T {
      match this
      case Some(v) => v
      case None => default
    }
  }
}
